=== FILE: README.md ===
# HR employee records — a Dafny model

This project models how the HR application shapes and validates an employee
record on its way from the web editor to the database. A record is a
person's scalar details plus a passport, a family, educations, work
experiences, and links to the skill, certification and language catalogues.

- `js_values.dfy`, `filtering.dfy`, `employee_form.dfy` model the React
  editor. This covers its state and handlers (a class), the conversion of a
  fetched record into editable state, and the filter that drops partial
  entries from the payload. It also covers the message shown after a failed
  save.
- `serializers.dfy` models the REST serializers:
  - the field and object validators, with their messages;
  - the nested `create` and `update`, as an in-memory store class. Its
    methods run the source's loops (the row-per-entry creates, the link
    loops and the `setattr` loops of `update`) and write each single
    `objects.create(**data)` as one map override; they are proved against
    the functions `Created` and `Updated`.
- `models.dfy` models the column constraints. These are the choice lists, the
  phone and passport formats as character predicates, the name bounds, the
  defaults, the one-link-per-reference rule and `Employee.__str__`.
- `forms.dfy` models the `clean` rules of the server-rendered forms and the
  search box. Lemmas show where these rules agree with the API's.
- `text_fields.dfy` models the text fields both frameworks use: Python's
  `str.strip`, then the required, length and NUL-character checks.
- `wrappers.dfy` holds `Option`, `Result` and `Outcome`.

Dates are day numbers, and "today" and "the current year" are parameters.
JavaScript truthiness is explicit: `''`, `0`, `null` and `undefined` are
falsy.

## Model

| member | source | states |
|---|---|---|
| EmployeeForm.Initial | frontend/src/components/EmployeeForm.js:14-39 | the nine scalar inputs and four passport keys are `''` and there is no `id`; family is `{number_of_children: 0, marital_status: ''}`; all five collections are empty |
| EmployeeForm.Template | frontend/src/components/EmployeeForm.js:133-145 | each kind's new entry has only `''` values, so it is never complete enough to be submitted |
| EmployeeForm.SetField | frontend/src/components/EmployeeForm.js:109-111 | for one of the nine scalar inputs, exactly that field takes the value and is the only key added; every other field, both sub-objects and all collections are unchanged |
| EmployeeForm.SetPassportField | frontend/src/components/EmployeeForm.js:119-124 | only the named passport key changes; the rest of the record is unchanged |
| EmployeeForm.SetFamilyField | frontend/src/components/EmployeeForm.js:126-131 | only the named family key changes; a `null` family becomes an object holding that key alone; the rest of the record is unchanged |
| EmployeeForm.SetItemField | frontend/src/components/EmployeeForm.js:113-117 | the collection keeps its length; element `i` differs only at key `name`; other elements and other collections are unchanged |
| EmployeeForm.Append | frontend/src/components/EmployeeForm.js:133-147 | the collection grows by one; earlier elements are kept; the new last element is the kind's template; nothing else changes |
| EmployeeForm.RemoveAt | frontend/src/components/EmployeeForm.js:149-153 | with `i` in range, the length drops by one, elements before `i` stay and later ones shift down; with `i` past the end nothing changes |
| EmployeeForm.AppendThenRemoveRestores | frontend/src/components/EmployeeForm.js:133-153 | appending a template and removing it at the last index restores the record |
| EmployeeForm.EditState | frontend/src/components/EmployeeForm.js:78-103 | other keys are copied, and the family is copied even when it is `null`; a falsy birth, issue or expiry date becomes `''`; a missing list becomes `[]`; the `*_info` lists map element by element, in order, to `{skill_id}`, `{certification_id, date_obtained}` and `{language_id, proficiency_level}` |
| Filtering.FilterSelectsInOrder | frontend/src/components/EmployeeForm.js:158-180 | the filter's output is the input read at the increasing positions of the accepted entries, and a position is read iff its entry is accepted |
| Filtering.FilterIdempotent | frontend/src/components/EmployeeForm.js:158-180 | filtering twice equals filtering once |
| Filtering.FilterConcat | frontend/src/components/EmployeeForm.js:158-180 | the filter distributes over concatenation |
| EmployeeForm.Payload | frontend/src/components/EmployeeForm.js:158-180 | scalars, passport and family are copied; each collection is its filtered version |
| EmployeeForm.KeptSelectsCompleteInOrder | frontend/src/components/EmployeeForm.js:160-179 | each submitted collection is, in order, exactly its entries whose required fields are all truthy |
| EmployeeForm.KeptIdempotent | frontend/src/components/EmployeeForm.js:160-179 | filtering a submitted collection again changes nothing |
| EmployeeForm.KeptAllComplete | frontend/src/components/EmployeeForm.js:160-179 | a collection of complete entries is submitted unchanged |
| EmployeeForm.PayloadIdempotent | frontend/src/components/EmployeeForm.js:158-180 | building the payload from a payload gives it back |
| EmployeeForm.AppendedBlankIsNotSubmitted | frontend/src/components/EmployeeForm.js:133-180 | an added entry that is never filled in does not change the payload |
| EmployeeForm.EditThenSubmitKeepsEverything | frontend/src/components/EmployeeForm.js:78-180 | a well-formed fetched record, loaded and saved unchanged, is sent back in full |
| EmployeeForm.ErrorMessageAsWritten | frontend/src/components/EmployeeForm.js:192-199 | with a response body the message is always the generic save message; without one it is the network message |
| EmployeeForm.ServerMessageHiddenAsWritten | frontend/src/components/EmployeeForm.js:192-196 | a response carrying the server message `duplicate` still shows the generic text |
| EmployeeForm.ErrorMessage | frontend/src/components/EmployeeForm.js:192-199 | corrected: the server's first `name` message when truthy, else the generic save message, else the network message; never blank |
| EmployeeForm.EmployeeEditor.constructor | frontend/src/components/EmployeeForm.js:13-40 | create mode starts from the initial record with no error; the invariant (in create mode the record has no `id`) holds |
| EmployeeForm.EmployeeEditor.Load | frontend/src/components/EmployeeForm.js:71-103 | edit mode holds the converted fetched record |
| EmployeeForm.EmployeeEditor.HandleChange | frontend/src/components/EmployeeForm.js:109-111 | for one of the nine scalar inputs, the state becomes `SetField` of the old state; mode and error unchanged; the no-`id` invariant is kept |
| EmployeeForm.EmployeeEditor.HandleNestedChange | frontend/src/components/EmployeeForm.js:113-117 | the state becomes `SetItemField` of the old state |
| EmployeeForm.EmployeeEditor.HandlePassportInfoChange | frontend/src/components/EmployeeForm.js:119-124 | the state becomes `SetPassportField` of the old state |
| EmployeeForm.EmployeeEditor.HandleFamilyChange | frontend/src/components/EmployeeForm.js:126-131 | the state becomes `SetFamilyField` of the old state |
| EmployeeForm.EmployeeEditor.HandleAddField | frontend/src/components/EmployeeForm.js:133-147 | the state becomes `Append` of the old state |
| EmployeeForm.EmployeeEditor.HandleRemoveField | frontend/src/components/EmployeeForm.js:149-153 | the state becomes `RemoveAt` of the old state (splice on a copy) |
| EmployeeForm.EmployeeEditor.Submit | frontend/src/components/EmployeeForm.js:155-201 | returns the filtered payload and leaves the edited record alone; a create-mode payload has no `id`; the error is cleared on success and on failure set to `ErrorMessageAsWritten`, the generic text whenever a response body arrived |
| Models.Gender.Code | hr_app/models.py:24-32 | each gender's code is non-empty and fits the 1-character column |
| Models.ParseGender | hr_app/models.py:24-32 | a string is accepted iff it is the code of a gender, and then of that one |
| Models.MaritalStatus.Code | hr_app/models.py:154-164 | each code is non-empty and fits the 10-character column |
| Models.ParseMaritalStatus | hr_app/models.py:154-164 | accepts exactly `single`, `married`, `divorced`, `widowed` |
| Models.EducationLevel.Code | hr_app/models.py:79-89 | each code is non-empty and fits the 20-character column |
| Models.ParseEducationLevel | hr_app/models.py:79-89 | accepts exactly `secondary`, `bachelor`, `master`, `phd` |
| Models.Proficiency.Code | hr_app/models.py:310-320 | each code is non-empty and fits the 12-character column |
| Models.ParseProficiency | hr_app/models.py:310-320 | accepts exactly `beginner`, `intermediate`, `advanced`, `native` |
| Models.ChoicesRoundTrip | hr_app/models.py:24-32 | every choice of the four lists is parsed back from its code |
| Models.PhoneNumberShape | hr_app/models.py:42-45 | a phone number matches iff, after an optional `+`, it is 9–15 digits, or 10–16 digits starting with `1` |
| Models.PhoneNumberFitsColumn | hr_app/models.py:42-50 | every matching number has at most 17 characters, so the length limit never rejects one |
| Models.LongestPhoneNumber | hr_app/models.py:42-50 | a 17-character number matches, so the limit is reached |
| Models.PassportNumberParts | hr_app/models.py:184-192 | a passport number is two capital letters followed by exactly seven digits, nine characters in all |
| Models.DisplayName | hr_app/models.py:65-66 | the last name, a space, then the first name |
| Models.NameFieldsBoundNames | hr_app/models.py:6-20 | a first or last name the field accepts is 2–30 characters, a blank one is refused as missing; a patronymic the field accepts is at most 30 characters, a blank one is accepted as empty, and a non-blank NUL-free one is accepted iff it fits |
| Models.DisplayNameLength | hr_app/models.py:6-15 | names within the 2–30 bounds give a display name of 5–61 characters |
| Models.DisplayNameDeterminesNames | hr_app/models.py:65-66 | if last names contain no space, equal display names mean equal first and last names |
| Models.NoDuplicatesAppend | hr_app/models.py:241-242 | a new link keeps an employee's references distinct iff its reference is not linked yet |
| Serializers.ValidateName | hr_app/serializers.py:11-19 | the stripped name is accepted iff the 100-character required field takes it and no stored name equals it ignoring case; a field error, or a name stored exactly as sent, is refused by the field before `validate_name` runs; only another letter-case spelling gets the catalogue's message (the same for lines 21-29 and 31-39) |
| Serializers.AcceptedNameKeepsCatalogDistinct | hr_app/serializers.py:16-19 | adding an accepted name keeps a catalogue free of names that differ only in case |
| Serializers.StoredNameRefusedInAnyCase | hr_app/serializers.py:11-19 | once a name is stored, every submission stripping to it in any letter case is refused: the exact name by the uniqueness check, another spelling with the catalogue's message |
| Serializers.ValidateNumberOfChildren | hr_app/serializers.py:47-50 | accepted iff the count is at least 0 |
| Serializers.ValidatePassport | hr_app/serializers.py:59-62 | accepted iff expiry is strictly after issue; equal dates are refused |
| Serializers.ValidatePassportAsWritten | hr_app/serializers.py:59-62 | as written: a partial update missing either passport date raises `KeyError`; with both it decides as `ValidatePassport`, refusing with its message |
| Serializers.PartialPassportRaisesAsWritten | hr_app/serializers.py:59-62 | a passport sent without its issue date raises `KeyError` |
| Serializers.ValidateGraduationYearAsWritten | hr_app/serializers.py:69-73 | as written: a year is accepted iff it is not after the current one; a null year raises `TypeError` |
| Serializers.NullGraduationYearRaisesAsWritten | hr_app/serializers.py:69-73 | a null graduation year crashes the check as written |
| Serializers.ValidateGraduationYear | hr_app/serializers.py:69-73 | corrected: refused iff a year is given and it is after the current year |
| Serializers.GraduationYearFixOnlyCoversNull | hr_app/serializers.py:69-73 | on every actual year the corrected check decides as the written one |
| Serializers.ValidateWorkExperience | hr_app/serializers.py:80-83 | refused iff an end date is given and it is before the start; an equal or missing end passes |
| Serializers.ValidateWorkExperienceAsWritten | hr_app/serializers.py:80-83 | as written: a partial update with an end date but no start date raises `KeyError`; with a start date it decides as `ValidateWorkExperience`; no end date passes |
| Serializers.PartialWorkDatesRaiseAsWritten | hr_app/serializers.py:80-83 | a work entry with an end date and no start date raises `KeyError` |
| Serializers.ValidateDateOfBirth | hr_app/serializers.py:135-138 | accepted iff the birth date is not after today |
| Serializers.Link | hr_app/serializers.py:170-176 | linking yields one link per entry, or an error of that catalogue |
| Serializers.LinkSucceedsIffLinkable | hr_app/serializers.py:170-204 | linking succeeds iff every id is known, has its required column and occurs once; the links name the entries' ids and values in order |
| Serializers.LinkedOnce | hr_app/serializers.py:170-204 | successful links respect the one-link-per-reference rule |
| Serializers.LinkErrorNamesAnEntry | hr_app/serializers.py:170-204 | a failure names an entry's id: an unknown one, or one linked twice or without its column |
| Serializers.LinkFailurePersists | hr_app/serializers.py:170-204 | once a prefix of the entries fails, the whole list fails with that error |
| Serializers.WithDefaults | hr_app/serializers.py:162-167 | one row per entry, in order, each the column defaults overridden by the entry |
| Serializers.Created | hr_app/serializers.py:140-206 | `create` succeeds iff all three link lists are linkable, and the new employee respects the one-link rule |
| Serializers.CreateStoresWhatWasSent | hr_app/serializers.py:140-206 | a created employee holds every sent scalar and family value, the column defaults for the rest, the passport as sent, one education and work row per entry in order, and one link per entry in order naming its id and column |
| Serializers.CreatedFamilyChildCount | hr_app/serializers.py:156 | a created family has the sent child count, or 0 when none was sent |
| Serializers.Relink | hr_app/serializers.py:256-302 | a sent list is relinked from scratch; a list not sent keeps the stored links |
| Serializers.Merged | hr_app/serializers.py:226-237 | a missing or empty sub-object leaves the row alone; otherwise only the sent keys are overwritten |
| Serializers.MergedRow | hr_app/serializers.py:226-237 | a sent, non-empty family or passport dict fails with `RelatedObjectDoesNotExist` iff the employee has no such row; otherwise the row becomes `Merged` of it; nothing sent leaves the row, or its absence, alone |
| Serializers.Recreated | hr_app/serializers.py:240-253 | a sent list, even an empty one, replaces the rows; a list not sent keeps them |
| Serializers.Updated | hr_app/serializers.py:208-304 | `update` succeeds iff the employee has a family row when a family is sent, a passport row when a passport is sent, and every sent link list is linkable; it keeps the one-link rule |
| Serializers.UpdateKeepsWhatWasNotSent | hr_app/serializers.py:208-304 | scalars not sent, sub-objects not sent or sent empty, and lists not sent are unchanged |
| Serializers.UpdateStoresWhatWasSent | hr_app/serializers.py:208-304 | each sent scalar is stored; a sent family or passport is merged into the existing row; each sent list becomes exactly the sent entries, in order |
| Serializers.MissingRowFailsUpdate | hr_app/serializers.py:226-237 | a family or passport sent for an employee without that row makes `update` fail with `RelatedObjectDoesNotExist`, naming the family first when both are missing |
| Serializers.UnknownReferenceFailsSave | hr_app/serializers.py:256-266 | an entry naming an unknown id makes `update` and `create` fail |
| Serializers.UpdateIsIdempotent | hr_app/serializers.py:208-304 | applying the same update twice equals applying it once |
| Serializers.SetAttrs | hr_app/serializers.py:221-222 | the `setattr` loop leaves the old fields overridden by the sent ones |
| Serializers.Merge | hr_app/serializers.py:226-237 | computes `Merged` |
| Serializers.MergeRow | hr_app/serializers.py:226-237 | computes `MergedRow`: reads the related row only when a non-empty dict was sent, and fails when it is missing |
| Serializers.Recreate | hr_app/serializers.py:240-253 | computes `Recreated` |
| Serializers.CreateRows | hr_app/serializers.py:162-163 | the create loop makes `WithDefaults` of the entries |
| Serializers.EmployeeStore.LinkAll | hr_app/serializers.py:170-176 | the link loop returns exactly `Link` of its entries |
| Serializers.EmployeeStore.Relinked | hr_app/serializers.py:256-266 | computes `Relink` |
| Serializers.EmployeeStore.Create | hr_app/serializers.py:140-206 | each `objects.create` writes the defaults overridden by the data, and the loops run as written; on success the next id now holds `Created`; on failure the table and the id counter are unchanged; the store invariant is kept |
| Serializers.EmployeeStore.constructor | hr_app/models.py:147-153 | the store holds the given employees, some perhaps without a family or passport row, and the next id; the store invariant holds |
| Serializers.EmployeeStore.Update | hr_app/serializers.py:208-304 | on success the employee becomes `Updated` of its old row; on failure the table is unchanged; the store invariant is kept |
| Forms.CleanDateOfBirth | hr_app/forms.py:35-39 | accepted iff the birth date is not after today |
| Forms.CleanNumberOfChildren | hr_app/forms.py:53-57 | accepted iff the count is at least 0 |
| Forms.CleanPassportDates | hr_app/forms.py:75-80 | refused iff both dates are present and expiry is on or before issue |
| Forms.CleanGraduationYear | hr_app/forms.py:97-102 | refused iff a non-zero year is given and it is after the current year |
| Forms.CleanWorkDates | hr_app/forms.py:117-122 | refused iff both dates are present and the end is before the start |
| Forms.CleanDateObtained | hr_app/forms.py:144-148 | accepted iff the date is not after today |
| Forms.NameFieldValue | hr_app/forms.py:162-171 | `cleaned_data['name']` is present iff the required 100-character field accepts the name, and is then the stripped name |
| Forms.CleanReferenceNameAsWritten | hr_app/forms.py:170-173 | as written: a name the field refused raises `KeyError`; otherwise refused with the catalogue's message iff a stored name matches ignoring case (the same for lines 182-185 and 194-197) |
| Forms.BlankReferenceNameRaisesAsWritten | hr_app/forms.py:170-173 | a creation form submitted with a blank name crashes `clean` as written |
| Forms.CleanReferenceName | hr_app/forms.py:170-173 | corrected: a name the field refused is left to the field's error; any other is refused iff a stored name matches ignoring case |
| Forms.ReferenceNameFixOnlyCoversMissing | hr_app/forms.py:170-173 | on every name the field accepts the corrected and written `clean` decide alike |
| Forms.ReferenceNameRulesAgree | hr_app/forms.py:162-197 | the creation form and the API accept the same names; for a name stored exactly as sent the form gives the catalogue's message and the API its uniqueness error |
| Forms.FormsAgreeWithApi | hr_app/forms.py:35-57 | the forms and the API decide alike on birth dates and child counts; the source writes each rule twice |
| Forms.PassportRulesAgree | hr_app/forms.py:75-80 | with both dates the form decides as the API; missing one, the form passes where the API as written raises `KeyError`; the form refuses exactly what the API as written refuses |
| Forms.WorkDateRulesAgree | hr_app/forms.py:117-122 | with a start date the form decides as the API; missing it, the form passes where the API as written raises `KeyError` once an end date is given; the form refuses exactly what the API as written refuses |
| Forms.GraduationYearRulesAgree | hr_app/forms.py:97-102 | if the current year is not negative, the form rule equals the corrected API rule; a missing year passes the form but crashes the API as written |
| TextFields.SkipSpace | hr_app/forms.py:229-230 | the first index from `i` on that is not white space: everything skipped is white space |
| TextFields.SkipSpaceBack | hr_app/forms.py:229-230 | the end of the value once trailing white space is skipped: everything skipped is white space, and the character before it is not |
| TextFields.Strip | hr_app/forms.py:229-230 | the result is `s[i..j]` with only white space before `i` and from `j` on, and it neither starts nor ends with white space |
| TextFields.StripIdempotent | hr_app/forms.py:229-230 | stripping twice equals stripping once |
| TextFields.ValidatorErrors | hr_app/forms.py:229-230 | lists every failed check of a non-empty value: too short, too long, holding a NUL character; empty iff all pass |
| TextFields.CleanText | hr_app/forms.py:229-230 | accepted iff the stripped value is empty on an optional field, or non-empty, within the bounds and free of NUL; a blank required value is refused as required |
| TextFields.CleanTextIdempotent | hr_app/forms.py:229-230 | an accepted value, submitted again, is accepted unchanged |
| Forms.CleanQuery | hr_app/forms.py:229-230 | the query is stripped; empty or missing is accepted; otherwise it is accepted iff it has 3–100 characters and no NUL character, and a refusal lists every failed check |
| Forms.CleanQueryIdempotent | hr_app/forms.py:229-230 | an accepted query, submitted again, comes back unchanged |

## Left out

- HTTP traffic is not modelled: the axios calls, fetch order, reference-list loading and navigation after a save. How a request ends is a parameter of `Submit`.
- JSX rendering, `EmployeeDetail.js`, `EmployeeList.js`, `SearchResults.js`, `Navbar.js`, the three small catalogue forms, `App.js`, `views.py`, `urls.py` and `admin.py` are not part of this model.
- `handleAddField` with a key that is not one of the five collections is not modelled. Spreading `employee[key]` throws for a missing key and spreads characters for a string field; the editor only passes collection keys.
- EmployeeForm.SetField: requires one of the nine scalar input names, since only those inputs call `handleChange`.
- EmployeeForm.SetItemField: requires an index inside the collection, since the editor only renders handlers for existing entries.
- EmployeeForm.EditState: the fetched `skills_info`, `certifications_info` and `languages_info` lists, which the spread also copies into the editor state, are not kept in the model's record. `handleSubmit`'s spread sends them back in every save, and the serializer discards them as read-only fields, so they change nothing that is stored.
- Serializers.Created: requires the family and passport parts to be present. The serializer declares both as required, and `create` pops them without a default.
- JavaScript numbers are modelled as integers; fractional values do not occur in the modelled fields.
- The `id` in a `DoesNotExist` error's text is not formatted. The error carries the catalogue and the offending value.
- Serializers.Link: only integer ids resolve. The ORM's coercion of numeric strings, and its `ValueError` on other strings, are not modelled.
- Serializers.Link: the stored `date_obtained` and `proficiency_level` are not parsed or checked against the choice list. The list field does not validate its items.
- Email and passport-number uniqueness across employees is not modelled, and nor are NOT NULL failures of scalar columns. The serializer's required fields prevent the latter.
- The passport serializer redeclares `passport_number` as a plain text field, so the API path does not apply the column's format check. `IsPassportNumber` states the column's rule.
- Serializers.ValidateNumberOfChildren / Forms.CleanNumberOfChildren: a negative child count is refused either way. The column's own non-negativity check runs first and would show its message instead of the custom one; which message is shown is not modelled.
- Serializers.ValidateGraduationYearAsWritten / Serializers.ValidateGraduationYear / Forms.CleanGraduationYear: `graduation_year` is a positive-integer column, so both the serializer field and the form field refuse a negative year with their own minimum-value error before the custom check runs. The model's checks accept a negative year; that earlier refusal is not modelled.
- `date_created` and `date_updated` come from the clock and are not modelled.
- Letter-case matching (`name__iexact`) folds ASCII letters only. Other scripts' case folding depends on the database.
- The `\d` of the two patterns is modelled as ASCII digits, whereas Python's `re` also accepts other Unicode digits. The `$` anchor's acceptance of one trailing newline is also not modelled; text fields strip it before the check.
- Serializers.ValidateName: models a new name. On an update of a catalogue entry the uniqueness check skips the entry itself, while `validate_name` does not; that case is not modelled.
- Forms.CleanReferenceName: the creation forms override `clean` without calling the model form's own `clean`, so Django's uniqueness check for `name` never runs for them. Nothing is lost: the case-insensitive lookup in `clean` already refuses every exact duplicate. The model therefore has no separate uniqueness step.
- The REST framework's check for surrogate characters is not modelled: a Dafny `char` is never a surrogate.
- Serializers.Updated / Serializers.Merged: take the data after the validators have passed. A partial update that omits a passport date, or a work entry's start date, raises in the validator first (see Findings) and never reaches them.
- `transaction.atomic` is modelled by computing every write first and committing only on success. Database id sequences that advance on a rolled-back insert are not modelled.

## Findings

| source | as written | input that shows it | evidently intended | confidence | as-written member | corrected member |
|---|---|---|---|---|---|---|
| frontend/src/components/EmployeeForm.js:192-196 | `'Произошла ошибка при сохранении сотрудника.' \|\| error.response.data.name?.[0]` always yields the literal | a 400 response with body `{name: ["duplicate"]}` shows the generic text, not `duplicate` | show the server's first `name` message when there is one, else the generic text | high, not executed | EmployeeForm.ErrorMessageAsWritten, EmployeeForm.ServerMessageHiddenAsWritten | EmployeeForm.ErrorMessage |
| hr_app/forms.py:170-173 | `name = self.cleaned_data['name']` with no guard, though the field leaves `name` out of `cleaned_data` when it refuses it (the same at lines 182-185 and 194-197) | a skill creation form submitted with a blank name raises `KeyError` (a server error) instead of showing the field's "required" error | read the name with `cleaned_data.get('name')` and skip the check when it is missing | medium, not executed; no view in this repository renders these forms | Forms.CleanReferenceNameAsWritten, Forms.BlankReferenceNameRaisesAsWritten | Forms.CleanReferenceName |
| hr_app/serializers.py:59-62 | `data['date_expiry'] <= data['date_issued']` reads both dates with no guard, though a partial update (PATCH) leaves an omitted date out of `data` | a PATCH of an employee with `passport_info: {"date_expiry": "2030-01-01"}` raises `KeyError` (a server error) | compare only when both dates came through, as `PassportInfoForm.clean` (hr_app/forms.py:75-80) does | medium, not executed; only a partial update, which the editor never sends, reaches it | Serializers.ValidatePassportAsWritten, Serializers.PartialPassportRaisesAsWritten | Forms.CleanPassportDates |
| hr_app/serializers.py:80-83 | `data['end_date'] < data['start_date']` reads the start date with no guard once an end date is given | a PATCH whose work entry sends `end_date` but no `start_date` raises `KeyError` (a server error) | compare only when both dates came through, as `WorkExperienceForm.clean` (hr_app/forms.py:117-122) does | medium, not executed; only a partial update, which the editor never sends, reaches it | Serializers.ValidateWorkExperienceAsWritten, Serializers.PartialWorkDatesRaiseAsWritten | Forms.CleanWorkDates |
| hr_app/serializers.py:69-73 | `value > current_year` with `value` possibly `None`, because the column is nullable | an education entry sent with `"graduation_year": null` raises `TypeError` (a server error) | a missing year passes, as `EducationForm.clean_graduation_year` (hr_app/forms.py:97-102) does | medium, not executed | Serializers.ValidateGraduationYearAsWritten, Serializers.NullGraduationYearRaisesAsWritten | Serializers.ValidateGraduationYear |

=== FILE: employee_form.dfy ===
/**
 * The employee editor of the web client (frontend/src/components/EmployeeForm.js):
 * the record it edits, the leaf-update and append/remove handlers, the
 * conversion of a fetched record into editable state, the filter that builds
 * the submitted payload and the choice of the error message shown after a
 * failed submission.
 */
module EmployeeForm {
  import opened Wrappers
  import opened JsValues
  import opened Filtering

  /** The five variable-length sub-collections of an employee record. */
  datatype Collection = Educations | WorkExperiences | Skills | Certifications | Languages

  /** The nine scalar inputs of the form, bound by name to `handleChange`. */
  const ScalarNames: seq<string> :=
    ["first_name", "last_name", "patronymic", "date_of_birth", "gender",
     "nationality", "email", "phone_number", "address"]

  /**
   * The editor state: every top-level scalar key (the nine inputs and, in edit
   * mode, whatever else the server sent, such as `id`), the passport and
   * family sub-objects (`family` is `None` when the server sent `null` for
   * an employee without a family row) and the five sub-collections.
   */
  datatype Employee = Employee(
    fields: Obj,
    passportInfo: Obj,
    family: Option<Obj>,
    educations: seq<Obj>,
    workExperiences: seq<Obj>,
    skills: seq<Obj>,
    certifications: seq<Obj>,
    languages: seq<Obj>)
  {
    /** `employee[key]` for a collection key. */
    function Items(k: Collection): seq<Obj> {
      match k
      case Educations => educations
      case WorkExperiences => workExperiences
      case Skills => skills
      case Certifications => certifications
      case Languages => languages
    }

    /** `{ ...employee, [key]: s }` for a collection key. */
    function WithItems(k: Collection, s: seq<Obj>): (r: Employee)
      ensures r.Items(k) == s
      ensures forall other :: other != k ==> r.Items(other) == Items(other)
      ensures r.fields == fields && r.passportInfo == passportInfo && r.family == family
    {
      match k
      case Educations => this.(educations := s)
      case WorkExperiences => this.(workExperiences := s)
      case Skills => this.(skills := s)
      case Certifications => this.(certifications := s)
      case Languages => this.(languages := s)
    }
  }

  /** The create-mode state: blank inputs, no children, empty collections. */
  function Initial(): (e: Employee)
    ensures e.fields.Keys == set n | n in ScalarNames
    ensures forall n :: n in ScalarNames ==> e.fields[n] == Str("")
    ensures "id" !in e.fields
    ensures e.passportInfo.Keys == {"passport_number", "issued_by", "date_issued", "date_expiry"}
    ensures forall key :: key in e.passportInfo ==> e.passportInfo[key] == Str("")
    ensures e.family == Some(map["number_of_children" := Num(0), "marital_status" := Str("")])
    ensures forall k :: e.Items(k) == []
  {
    Employee(
      map["first_name" := Str(""), "last_name" := Str(""), "patronymic" := Str(""),
          "date_of_birth" := Str(""), "gender" := Str(""), "nationality" := Str(""),
          "email" := Str(""), "phone_number" := Str(""), "address" := Str("")],
      map["passport_number" := Str(""), "issued_by" := Str(""),
          "date_issued" := Str(""), "date_expiry" := Str("")],
      Some(map["number_of_children" := Num(0), "marital_status" := Str("")]),
      [], [], [], [], [])
  }

  // ---------------------------------------------------------------------
  // Which entries are complete enough to be submitted
  // ---------------------------------------------------------------------

  /**
   * The filter callback of the submit handler for kind `k`: every field the
   * kind requires is truthy (end date and responsibilities are optional).
   */
  predicate Complete(k: Collection, o: Obj) {
    match k
    case Educations =>
      Truthy(Get(o, "education_level")) && Truthy(Get(o, "institution"))
      && Truthy(Get(o, "graduation_year")) && Truthy(Get(o, "specialty"))
    case WorkExperiences =>
      Truthy(Get(o, "employer")) && Truthy(Get(o, "position")) && Truthy(Get(o, "start_date"))
    case Skills => Truthy(Get(o, "skill_id"))
    case Certifications => Truthy(Get(o, "certification_id")) && Truthy(Get(o, "date_obtained"))
    case Languages => Truthy(Get(o, "language_id")) && Truthy(Get(o, "proficiency_level"))
  }

  /** The blank entry `handleAddField` appends for kind `k`. */
  function Template(k: Collection): (t: Obj)
    ensures forall n :: n in t ==> t[n] == Str("")
    ensures !Complete(k, t)
  {
    var t := match k
      case Educations =>
        map["education_level" := Str(""), "institution" := Str(""),
            "graduation_year" := Str(""), "specialty" := Str("")]
      case WorkExperiences =>
        map["employer" := Str(""), "position" := Str(""), "start_date" := Str(""),
            "end_date" := Str(""), "responsibilities" := Str("")]
      case Certifications => map["certification_id" := Str(""), "date_obtained" := Str("")]
      case Languages => map["language_id" := Str(""), "proficiency_level" := Str("")]
      case Skills => map["skill_id" := Str("")];
    t
  }

  // ---------------------------------------------------------------------
  // Leaf updates
  // ---------------------------------------------------------------------

  /** `handleChange`: `{ ...employee, [name]: value }` for one of the scalar inputs. */
  function SetField(e: Employee, name: string, value: JsValue): (r: Employee)
    requires name in ScalarNames
    ensures r.fields.Keys == e.fields.Keys + {name}
    ensures Get(r.fields, name) == value
    ensures forall key :: key != name ==> Get(r.fields, key) == Get(e.fields, key)
    ensures r.passportInfo == e.passportInfo && r.family == e.family
    ensures forall k :: r.Items(k) == e.Items(k)
  {
    e.(fields := e.fields[name := value])
  }

  /** `handlePassportInfoChange`: one key of `passport_info`. */
  function SetPassportField(e: Employee, name: string, value: JsValue): (r: Employee)
    ensures Get(r.passportInfo, name) == value
    ensures forall key :: key != name ==> Get(r.passportInfo, key) == Get(e.passportInfo, key)
    ensures r.fields == e.fields && r.family == e.family
    ensures forall k :: r.Items(k) == e.Items(k)
  {
    e.(passportInfo := e.passportInfo[name := value])
  }

  /**
   * `handleFamilyChange`: one key of `family`; spreading a `null` family
   * spreads nothing, so the family then holds that key alone.
   */
  function SetFamilyField(e: Employee, name: string, value: JsValue): (r: Employee)
    ensures r.family.Some? && Get(r.family.value, name) == value
    ensures forall key :: key != name ==> Get(r.family.value, key) == Get(e.family.GetOr(map[]), key)
    ensures r.fields == e.fields && r.passportInfo == e.passportInfo
    ensures forall k :: r.Items(k) == e.Items(k)
  {
    e.(family := Some(e.family.GetOr(map[])[name := value]))
  }

  /** `handleNestedChange`: key `name` of element `i` of collection `k`. */
  function SetItemField(e: Employee, k: Collection, i: nat, name: string, value: JsValue): (r: Employee)
    requires i < |e.Items(k)|
    ensures |r.Items(k)| == |e.Items(k)|
    ensures Get(r.Items(k)[i], name) == value
    ensures forall key :: key != name ==> Get(r.Items(k)[i], key) == Get(e.Items(k)[i], key)
    ensures forall j :: 0 <= j < |e.Items(k)| && j != i ==> r.Items(k)[j] == e.Items(k)[j]
    ensures forall other :: other != k ==> r.Items(other) == e.Items(other)
    ensures r.fields == e.fields && r.passportInfo == e.passportInfo && r.family == e.family
  {
    var s := e.Items(k);
    e.WithItems(k, s[i := s[i][name := value]])
  }

  // ---------------------------------------------------------------------
  // Append and remove
  // ---------------------------------------------------------------------

  /** `handleAddField`: a blank entry at the end of collection `k`. */
  function Append(e: Employee, k: Collection): (r: Employee)
    ensures |r.Items(k)| == |e.Items(k)| + 1
    ensures r.Items(k)[..|e.Items(k)|] == e.Items(k)
    ensures r.Items(k)[|e.Items(k)|] == Template(k)
    ensures forall other :: other != k ==> r.Items(other) == e.Items(other)
    ensures r.fields == e.fields && r.passportInfo == e.passportInfo && r.family == e.family
  {
    e.WithItems(k, e.Items(k) + [Template(k)])
  }

  /**
   * `handleRemoveField`: `splice(i, 1)` on a copy of collection `k`; later
   * entries shift down by one, and an index past the end removes nothing.
   */
  function RemoveAt(e: Employee, k: Collection, i: nat): (r: Employee)
    ensures i < |e.Items(k)| ==> |r.Items(k)| == |e.Items(k)| - 1
    ensures i < |e.Items(k)| ==> forall j :: 0 <= j < i ==> r.Items(k)[j] == e.Items(k)[j]
    ensures i < |e.Items(k)| ==> forall j :: i <= j < |r.Items(k)| ==> r.Items(k)[j] == e.Items(k)[j + 1]
    ensures i >= |e.Items(k)| ==> r == e
    ensures forall other :: other != k ==> r.Items(other) == e.Items(other)
    ensures r.fields == e.fields && r.passportInfo == e.passportInfo && r.family == e.family
  {
    var s := e.Items(k);
    if i < |s| then e.WithItems(k, s[..i] + s[i + 1..]) else e
  }

  /** Appending a blank entry and removing it again restores the state. */
  lemma AppendThenRemoveRestores(e: Employee, k: Collection)
    ensures RemoveAt(Append(e, k), k, |e.Items(k)|) == e
  {
    var r := RemoveAt(Append(e, k), k, |e.Items(k)|);
    assert r.Items(k) == e.Items(k);
    forall other ensures r.Items(other) == e.Items(other) {
    }
    assert r.educations == e.educations by { assert r.Items(Educations) == e.Items(Educations); }
    assert r.workExperiences == e.workExperiences by { assert r.Items(WorkExperiences) == e.Items(WorkExperiences); }
    assert r.skills == e.skills by { assert r.Items(Skills) == e.Items(Skills); }
    assert r.certifications == e.certifications by { assert r.Items(Certifications) == e.Items(Certifications); }
    assert r.languages == e.languages by { assert r.Items(Languages) == e.Items(Languages); }
  }

  // ---------------------------------------------------------------------
  // Read shape -> edit shape
  // ---------------------------------------------------------------------

  /** A reference entity as the server nests it: `{id, name}`. */
  datatype RefEntity = RefEntity(id: int, name: string)

  /** Elements of `skills_info`, `certifications_info` and `languages_info`. */
  datatype SkillInfo = SkillInfo(skill: RefEntity)
  datatype CertificationInfo = CertificationInfo(certification: RefEntity, dateObtained: JsValue)
  datatype LanguageInfo = LanguageInfo(language: RefEntity, proficiencyLevel: JsValue)

  /**
   * An employee record as `GET /employees/{id}/` returns it. An absent or
   * null member is `None`; the server sends `null` for the passport or the
   * family of an employee that has no such row.
   */
  datatype EmployeeRecord = EmployeeRecord(
    fields: Obj,
    passportInfo: Option<Obj>,
    family: Option<Obj>,
    educations: Option<seq<Obj>>,
    workExperiences: Option<seq<Obj>>,
    skillsInfo: Option<seq<SkillInfo>>,
    certificationsInfo: Option<seq<CertificationInfo>>,
    languagesInfo: Option<seq<LanguageInfo>>)

  /** `value || ''`: a date input cannot bind to a missing value. */
  function OrBlank(v: JsValue): JsValue {
    Or(v, Str(""))
  }

  function SkillRow(x: SkillInfo): Obj {
    map["skill_id" := Num(x.skill.id)]
  }

  function CertificationRow(x: CertificationInfo): Obj {
    map["certification_id" := Num(x.certification.id), "date_obtained" := x.dateObtained]
  }

  function LanguageRow(x: LanguageInfo): Obj {
    map["language_id" := Num(x.language.id), "proficiency_level" := x.proficiencyLevel]
  }

  /** The conversion the edit mode applies to the fetched record. */
  function EditState(r: EmployeeRecord): (e: Employee)
    ensures forall key :: key != "date_of_birth" ==> Get(e.fields, key) == Get(r.fields, key)
    ensures Truthy(Get(r.fields, "date_of_birth")) ==> Get(e.fields, "date_of_birth") == Get(r.fields, "date_of_birth")
    ensures !Truthy(Get(r.fields, "date_of_birth")) ==> Get(e.fields, "date_of_birth") == Str("")
    ensures forall key :: key != "date_issued" && key != "date_expiry" ==>
      Get(e.passportInfo, key) == Get(r.passportInfo.GetOr(map[]), key)
    ensures forall key :: key in {"date_issued", "date_expiry"} ==>
      var before := Get(r.passportInfo.GetOr(map[]), key);
      Get(e.passportInfo, key) == if Truthy(before) then before else Str("")
    ensures e.family == r.family
    ensures e.educations == r.educations.GetOr([])
    ensures e.workExperiences == r.workExperiences.GetOr([])
    ensures |e.skills| == |r.skillsInfo.GetOr([])|
    ensures forall j :: 0 <= j < |e.skills| ==> e.skills[j] == SkillRow(r.skillsInfo.value[j])
    ensures |e.certifications| == |r.certificationsInfo.GetOr([])|
    ensures forall j :: 0 <= j < |e.certifications| ==>
      e.certifications[j] == CertificationRow(r.certificationsInfo.value[j])
    ensures |e.languages| == |r.languagesInfo.GetOr([])|
    ensures forall j :: 0 <= j < |e.languages| ==> e.languages[j] == LanguageRow(r.languagesInfo.value[j])
  {
    var p := r.passportInfo.GetOr(map[]);
    Employee(
      r.fields["date_of_birth" := OrBlank(Get(r.fields, "date_of_birth"))],
      p["date_issued" := OrBlank(Get(p, "date_issued"))]["date_expiry" := OrBlank(Get(p, "date_expiry"))],
      r.family,
      r.educations.GetOr([]),
      r.workExperiences.GetOr([]),
      match r.skillsInfo
      case Some(xs) => seq(|xs|, j requires 0 <= j < |xs| => SkillRow(xs[j]))
      case None => [],
      match r.certificationsInfo
      case Some(xs) => seq(|xs|, j requires 0 <= j < |xs| => CertificationRow(xs[j]))
      case None => [],
      match r.languagesInfo
      case Some(xs) => seq(|xs|, j requires 0 <= j < |xs| => LanguageRow(xs[j]))
      case None => [])
  }

  // ---------------------------------------------------------------------
  // Edit shape -> write shape
  // ---------------------------------------------------------------------

  /** The filter callback for kind `k`, as a value. */
  function CompleteFilter(k: Collection): Obj -> bool {
    o => Complete(k, o)
  }

  /** `s.filter(entry => Complete(k, entry))`. */
  function Kept(k: Collection, s: seq<Obj>): seq<Obj> {
    Filter(s, CompleteFilter(k))
  }

  /** The payload `handleSubmit` sends: every collection filtered, the rest copied. */
  function Payload(e: Employee): (p: Employee)
    ensures p.fields == e.fields && p.passportInfo == e.passportInfo && p.family == e.family
    ensures forall k :: p.Items(k) == Kept(k, e.Items(k))
  {
    Employee(
      e.fields, e.passportInfo, e.family,
      Kept(Educations, e.educations),
      Kept(WorkExperiences, e.workExperiences),
      Kept(Skills, e.skills),
      Kept(Certifications, e.certifications),
      Kept(Languages, e.languages))
  }

  /**
   * The submitted entries of kind `k` are exactly the complete ones, in
   * their original order: `s` read at the increasing positions of its
   * complete entries, and a position is selected iff its entry is complete.
   */
  lemma KeptSelectsCompleteInOrder(k: Collection, s: seq<Obj>)
    ensures |Positions(s, CompleteFilter(k))| == |Kept(k, s)|
    ensures forall j :: 0 <= j < |Kept(k, s)| ==>
      Positions(s, CompleteFilter(k))[j] < |s| && Kept(k, s)[j] == s[Positions(s, CompleteFilter(k))[j]]
    ensures Increasing(Positions(s, CompleteFilter(k)))
    ensures forall i :: 0 <= i < |s| ==> (i in Positions(s, CompleteFilter(k)) <==> Complete(k, s[i]))
  {
    FilterSelectsInOrder(s, CompleteFilter(k));
  }

  /** Filtering an already filtered collection changes nothing. */
  lemma KeptIdempotent(k: Collection, s: seq<Obj>)
    ensures Kept(k, Kept(k, s)) == Kept(k, s)
  {
    FilterIdempotent(s, CompleteFilter(k));
  }

  /** A collection whose entries are all complete passes the filter unchanged. */
  lemma KeptAllComplete(k: Collection, s: seq<Obj>)
    requires forall j :: 0 <= j < |s| ==> Complete(k, s[j])
    ensures Kept(k, s) == s
  {
    FilterAllAccepted(s, CompleteFilter(k));
  }

  /** Building the payload twice gives the payload. */
  lemma PayloadIdempotent(e: Employee)
    ensures Payload(Payload(e)) == Payload(e)
  {
    KeptIdempotent(Educations, e.educations);
    KeptIdempotent(WorkExperiences, e.workExperiences);
    KeptIdempotent(Skills, e.skills);
    KeptIdempotent(Certifications, e.certifications);
    KeptIdempotent(Languages, e.languages);
  }

  /** A blank entry appended and never filled in is not submitted. */
  lemma AppendedBlankIsNotSubmitted(e: Employee, k: Collection)
    ensures Payload(Append(e, k)) == Payload(e)
  {
    var a := Append(e, k);
    FilterConcat(e.Items(k), [Template(k)], CompleteFilter(k));
    assert Kept(k, [Template(k)]) == [] by {
      FilterCons([Template(k)], CompleteFilter(k));
    }
    assert Payload(a).Items(k) == Payload(e).Items(k);
    assert Payload(a).educations == Payload(e).educations by {
      assert Payload(a).Items(Educations) == Payload(e).Items(Educations);
    }
    assert Payload(a).workExperiences == Payload(e).workExperiences by {
      assert Payload(a).Items(WorkExperiences) == Payload(e).Items(WorkExperiences);
    }
    assert Payload(a).skills == Payload(e).skills by {
      assert Payload(a).Items(Skills) == Payload(e).Items(Skills);
    }
    assert Payload(a).certifications == Payload(e).certifications by {
      assert Payload(a).Items(Certifications) == Payload(e).Items(Certifications);
    }
    assert Payload(a).languages == Payload(e).languages by {
      assert Payload(a).Items(Languages) == Payload(e).Items(Languages);
    }
  }

  /**
   * A record as the server stores it: every reference id is a database id
   * (at least 1), every association date and level is filled in, and every
   * education and work-experience entry has its required fields.
   */
  predicate WellFormedRecord(r: EmployeeRecord) {
    && (forall x :: x in r.skillsInfo.GetOr([]) ==> x.skill.id >= 1)
    && (forall x :: x in r.certificationsInfo.GetOr([]) ==>
          x.certification.id >= 1 && Truthy(x.dateObtained))
    && (forall x :: x in r.languagesInfo.GetOr([]) ==>
          x.language.id >= 1 && Truthy(x.proficiencyLevel))
    && (forall o :: o in r.educations.GetOr([]) ==> Complete(Educations, o))
    && (forall o :: o in r.workExperiences.GetOr([]) ==> Complete(WorkExperiences, o))
  }

  /**
   * Loading a well-formed record for editing and submitting it unchanged
   * sends every association and entry back: the payload is the edit state,
   * whose associations carry the bare reference ids in the original order.
   */
  lemma EditThenSubmitKeepsEverything(r: EmployeeRecord)
    requires WellFormedRecord(r)
    ensures Payload(EditState(r)) == EditState(r)
  {
    var e := EditState(r);
    forall j | 0 <= j < |e.skills| ensures Complete(Skills, e.skills[j]) {
      assert r.skillsInfo.value[j] in r.skillsInfo.GetOr([]);
    }
    forall j | 0 <= j < |e.certifications| ensures Complete(Certifications, e.certifications[j]) {
      assert r.certificationsInfo.value[j] in r.certificationsInfo.GetOr([]);
    }
    forall j | 0 <= j < |e.languages| ensures Complete(Languages, e.languages[j]) {
      assert r.languagesInfo.value[j] in r.languagesInfo.GetOr([]);
    }
    forall j | 0 <= j < |e.educations| ensures Complete(Educations, e.educations[j]) {
      assert e.educations[j] in r.educations.GetOr([]);
    }
    forall j | 0 <= j < |e.workExperiences| ensures Complete(WorkExperiences, e.workExperiences[j]) {
      assert e.workExperiences[j] in r.workExperiences.GetOr([]);
    }
    KeptAllComplete(Skills, e.skills);
    KeptAllComplete(Certifications, e.certifications);
    KeptAllComplete(Languages, e.languages);
    KeptAllComplete(Educations, e.educations);
    KeptAllComplete(WorkExperiences, e.workExperiences);
  }

  // ---------------------------------------------------------------------
  // The message shown after a failed submission
  // ---------------------------------------------------------------------

  const SaveFailedMessage: string := "Произошла ошибка при сохранении сотрудника."
  const NetworkFailedMessage: string := "Произошла ошибка сети. Проверьте соединение и попробуйте снова."

  /** The parts of a rejected request the submit handler looks at. */
  datatype ErrorBody = ErrorBody(name: Option<seq<JsValue>>)
  /** `data` is `None` when the response body is falsy. */
  datatype HttpResponse = HttpResponse(data: Option<ErrorBody>)
  /** `response` is `None` when the request never got an answer. */
  datatype SubmitFailure = SubmitFailure(response: Option<HttpResponse>)

  /** `error.response && error.response.data`. */
  predicate HasBody(f: SubmitFailure) {
    f.response.Some? && f.response.value.data.Some?
  }

  /** `error.response.data.name?.[0]`. */
  function FirstNameError(b: ErrorBody): JsValue {
    match b.name
    case None => Undefined
    case Some(messages) => if |messages| > 0 then messages[0] else Undefined
  }

  /**
   * The message as the handler computes it: the non-empty literal on the
   * left of `||` is always truthy, so the server's message is never chosen.
   */
  function ErrorMessageAsWritten(f: SubmitFailure): (m: JsValue)
    ensures HasBody(f) ==> m == Str(SaveFailedMessage)
    ensures !HasBody(f) ==> m == Str(NetworkFailedMessage)
  {
    if HasBody(f) then Or(Str(SaveFailedMessage), FirstNameError(f.response.value.data.value))
    else Str(NetworkFailedMessage)
  }

  /** A concrete rejection whose server message the handler as written hides. */
  lemma ServerMessageHiddenAsWritten()
    ensures var f := SubmitFailure(Some(HttpResponse(Some(ErrorBody(Some([Str("duplicate")]))))));
      HasBody(f) && Truthy(FirstNameError(f.response.value.data.value))
      && ErrorMessageAsWritten(f) != FirstNameError(f.response.value.data.value)
  {
  }

  /**
   * The evidently intended message: the server's first `name` message when
   * it has one, the generic save message for any other rejection, the
   * network message when no response body arrived. It is never blank.
   */
  function ErrorMessage(f: SubmitFailure): (m: JsValue)
    ensures HasBody(f) && Truthy(FirstNameError(f.response.value.data.value)) ==>
      m == FirstNameError(f.response.value.data.value)
    ensures HasBody(f) && !Truthy(FirstNameError(f.response.value.data.value)) ==>
      m == Str(SaveFailedMessage)
    ensures !HasBody(f) ==> m == Str(NetworkFailedMessage)
    ensures Truthy(m)
  {
    if HasBody(f) then Or(FirstNameError(f.response.value.data.value), Str(SaveFailedMessage))
    else Str(NetworkFailedMessage)
  }

  // ---------------------------------------------------------------------
  // The component state
  // ---------------------------------------------------------------------

  /** The editor component: its `employee`, `isEditMode` and `error` state. */
  class EmployeeEditor {
    var employee: Employee
    var isEditMode: bool
    var error: JsValue

    /** In create mode the record has no `id`, so a create never names one. */
    ghost predicate Valid()
      reads this
    {
      !isEditMode ==> "id" !in employee.fields
    }

    /** Create mode: the initial state and no error. */
    constructor ()
      ensures Valid()
      ensures employee == Initial() && !isEditMode && error == Str("")
    {
      employee := Initial();
      isEditMode := false;
      error := Str("");
    }

    /** Edit mode: the fetched record, converted for editing. */
    method Load(record: EmployeeRecord)
      modifies this
      ensures Valid()
      ensures isEditMode && employee == EditState(record) && error == old(error)
    {
      isEditMode := true;
      employee := EditState(record);
    }

    method HandleChange(name: string, value: JsValue)
      requires Valid()
      requires name in ScalarNames
      modifies this
      ensures Valid()
      ensures employee == SetField(old(employee), name, value)
      ensures isEditMode == old(isEditMode) && error == old(error)
    {
      employee := employee.(fields := employee.fields[name := value]);
    }

    method HandleNestedChange(i: nat, name: string, value: JsValue, k: Collection)
      requires i < |employee.Items(k)|
      requires Valid()
      modifies this
      ensures Valid()
      ensures employee == SetItemField(old(employee), k, i, name, value)
      ensures isEditMode == old(isEditMode) && error == old(error)
    {
      var updated := employee.Items(k);
      updated := updated[i := updated[i][name := value]];
      employee := employee.WithItems(k, updated);
    }

    method HandlePassportInfoChange(name: string, value: JsValue)
      requires Valid()
      modifies this
      ensures Valid()
      ensures employee == SetPassportField(old(employee), name, value)
      ensures isEditMode == old(isEditMode) && error == old(error)
    {
      employee := employee.(passportInfo := employee.passportInfo[name := value]);
    }

    method HandleFamilyChange(name: string, value: JsValue)
      requires Valid()
      modifies this
      ensures Valid()
      ensures employee == SetFamilyField(old(employee), name, value)
      ensures isEditMode == old(isEditMode) && error == old(error)
    {
      employee := employee.(family := Some(employee.family.GetOr(map[])[name := value]));
    }

    method HandleAddField(k: Collection)
      requires Valid()
      modifies this
      ensures Valid()
      ensures employee == Append(old(employee), k)
      ensures isEditMode == old(isEditMode) && error == old(error)
    {
      var newField := Template(k);
      employee := employee.WithItems(k, employee.Items(k) + [newField]);
    }

    method HandleRemoveField(k: Collection, i: nat)
      requires Valid()
      modifies this
      ensures Valid()
      ensures employee == RemoveAt(old(employee), k, i)
      ensures isEditMode == old(isEditMode) && error == old(error)
    {
      var updated := employee.Items(k);
      if i < |updated| {
        updated := updated[..i] + updated[i + 1..];
        employee := employee.WithItems(k, updated);
      }
    }

    /**
     * `handleSubmit`: builds the payload; `failure` is how the request
     * ended (`None` for success). The edited state is never cleared, a
     * create never sends an `id`, and a failure shows the message the
     * handler computes as written.
     */
    method Submit(failure: Option<SubmitFailure>) returns (payload: Employee)
      requires Valid()
      modifies this
      ensures Valid()
      ensures payload == Payload(employee)
      ensures !isEditMode ==> "id" !in payload.fields
      ensures employee == old(employee) && isEditMode == old(isEditMode)
      ensures error == if failure.None? then Str("") else ErrorMessageAsWritten(failure.value)
    {
      payload := Payload(employee);
      match failure
      case None => error := Str("");
      case Some(f) => error := ErrorMessageAsWritten(f);
    }
  }
}

=== FILE: filtering.dfy ===
/**
 * `Array.prototype.filter` over immutable sequences, and what it promises:
 * it keeps exactly the entries its callback accepts, in their original
 * order, it distributes over concatenation and applying it twice changes
 * nothing.
 */
module Filtering {

  /** `s.filter(keep)`, visiting the entries from first to last. */
  function Filter<T>(s: seq<T>, keep: T -> bool): (r: seq<T>)
    ensures |r| <= |s|
    ensures forall x :: x in r ==> x in s && keep(x)
  {
    if s == [] then []
    else (if keep(s[0]) then [s[0]] else []) + Filter(s[1..], keep)
  }

  lemma FilterCons<T>(s: seq<T>, keep: T -> bool)
    requires s != []
    ensures keep(s[0]) ==> Filter(s, keep) == [s[0]] + Filter(s[1..], keep)
    ensures !keep(s[0]) ==> Filter(s, keep) == Filter(s[1..], keep)
  {
  }

  /** The positions of the accepted entries of `s`, in increasing order. */
  ghost function Positions<T>(s: seq<T>, keep: T -> bool): seq<nat> {
    if s == [] then []
    else (if keep(s[0]) then [0] else []) + Shifted(Positions(s[1..], keep))
  }

  ghost function Shifted(p: seq<nat>): (r: seq<nat>)
    ensures |r| == |p|
    ensures forall j :: 0 <= j < |p| ==> r[j] == p[j] + 1
  {
    seq(|p|, j requires 0 <= j < |p| => p[j] + 1)
  }

  ghost predicate Increasing(p: seq<nat>) {
    forall j, j' :: 0 <= j < j' < |p| ==> p[j] < p[j']
  }

  lemma PositionsCons<T>(s: seq<T>, keep: T -> bool)
    requires s != []
    ensures Positions(s, keep) == (if keep(s[0]) then [0] else []) + Shifted(Positions(s[1..], keep))
  {
  }

  lemma ShiftedIncreasing(p: seq<nat>, withZero: bool)
    requires Increasing(p)
    ensures Increasing((if withZero then [0] else []) + Shifted(p))
  {
    var q := (if withZero then [0] else []) + Shifted(p);
    var d := if withZero then 1 else 0;
    forall j, j' | 0 <= j < j' < |q|
      ensures q[j] < q[j']
    {
      assert q[j'] == p[j' - d] + 1;
      if j >= d {
        assert q[j] == p[j - d] + 1;
      }
    }
  }

  lemma {:induction false} PositionsIndexFilter<T>(s: seq<T>, keep: T -> bool)
    ensures |Positions(s, keep)| == |Filter(s, keep)|
    ensures forall j :: 0 <= j < |Filter(s, keep)| ==>
      Positions(s, keep)[j] < |s| && Filter(s, keep)[j] == s[Positions(s, keep)[j]]
  {
    if s != [] {
      var t := s[1..];
      PositionsIndexFilter(t, keep);
      FilterCons(s, keep);
      PositionsCons(s, keep);
      var pt, ft := Positions(t, keep), Filter(t, keep);
      var ps, fs := Positions(s, keep), Filter(s, keep);
      var d := if keep(s[0]) then 1 else 0;
      assert ps == (if d == 1 then [0] else []) + Shifted(pt);
      assert fs == (if d == 1 then [s[0]] else []) + ft;
      forall j | d <= j < |fs|
        ensures ps[j] < |s| && fs[j] == s[ps[j]]
      {
        assert ps[j] == pt[j - d] + 1;
        assert fs[j] == ft[j - d] == t[pt[j - d]];
      }
    }
  }

  lemma {:induction false} PositionsIncrease<T>(s: seq<T>, keep: T -> bool)
    ensures Increasing(Positions(s, keep))
  {
    if s != [] {
      PositionsIncrease(s[1..], keep);
      PositionsCons(s, keep);
      ShiftedIncreasing(Positions(s[1..], keep), keep(s[0]));
    }
  }

  /** A number is in the shifted positions iff its predecessor is in the positions. */
  lemma ShiftedMembers(p: seq<nat>, i: nat)
    ensures i in Shifted(p) <==> i > 0 && (i - 1) as nat in p
  {
    var sh := Shifted(p);
    if i in sh {
      var j :| 0 <= j < |sh| && sh[j] == i;
      assert p[j] == i - 1;
    }
    if i > 0 && (i - 1) as nat in p {
      var j :| 0 <= j < |p| && p[j] == i - 1;
      assert sh[j] == i;
    }
  }

  lemma {:induction false} PositionsAreAccepted<T>(s: seq<T>, keep: T -> bool)
    ensures forall i :: 0 <= i < |s| ==> (i in Positions(s, keep) <==> keep(s[i]))
  {
    if s != [] {
      var t := s[1..];
      PositionsAreAccepted(t, keep);
      PositionsCons(s, keep);
      var pt := Positions(t, keep);
      forall i | 0 <= i < |s|
        ensures i in Positions(s, keep) <==> keep(s[i])
      {
        ShiftedMembers(pt, i);
        if i > 0 {
          assert s[i] == t[i - 1];
        }
      }
    }
  }

  lemma FilterSelectsInOrder<T>(s: seq<T>, keep: T -> bool)
    ensures |Positions(s, keep)| == |Filter(s, keep)|
    ensures forall j :: 0 <= j < |Filter(s, keep)| ==>
      Positions(s, keep)[j] < |s| && Filter(s, keep)[j] == s[Positions(s, keep)[j]]
    ensures Increasing(Positions(s, keep))
    ensures forall i :: 0 <= i < |s| ==> (i in Positions(s, keep) <==> keep(s[i]))
  {
    PositionsIndexFilter(s, keep);
    PositionsIncrease(s, keep);
    PositionsAreAccepted(s, keep);
  }

  /** Filtering an already filtered sequence changes nothing. */
  lemma {:induction false} FilterIdempotent<T>(s: seq<T>, keep: T -> bool)
    ensures Filter(Filter(s, keep), keep) == Filter(s, keep)
  {
    if s != [] {
      var t := Filter(s[1..], keep);
      FilterIdempotent(s[1..], keep);
      FilterCons(s, keep);
      if keep(s[0]) {
        var fs := [s[0]] + t;
        assert fs[0] == s[0] && fs[1..] == t;
        FilterCons(fs, keep);
      }
    }
  }

  /** The filter works entry by entry: it distributes over concatenation. */
  lemma {:induction false} FilterConcat<T>(a: seq<T>, b: seq<T>, keep: T -> bool)
    ensures Filter(a + b, keep) == Filter(a, keep) + Filter(b, keep)
  {
    if a == [] {
      assert a + b == b;
    } else {
      var t := a[1..];
      assert (a + b)[0] == a[0] && (a + b)[1..] == t + b;
      FilterConcat(t, b, keep);
      FilterCons(a, keep);
      FilterCons(a + b, keep);
      var h := if keep(a[0]) then [a[0]] else [];
      assert Filter(a + b, keep) == h + Filter(t + b, keep);
      assert Filter(a, keep) == h + Filter(t, keep);
      assert h + (Filter(t, keep) + Filter(b, keep)) == (h + Filter(t, keep)) + Filter(b, keep);
    }
  }

  /** A sequence whose entries are all accepted passes the filter unchanged. */
  lemma {:induction false} FilterAllAccepted<T>(s: seq<T>, keep: T -> bool)
    requires forall j :: 0 <= j < |s| ==> keep(s[j])
    ensures Filter(s, keep) == s
  {
    if s != [] {
      FilterAllAccepted(s[1..], keep);
      FilterCons(s, keep);
      assert [s[0]] + s[1..] == s;
    }
  }
}

=== FILE: forms.dfy ===
/**
 * The server-rendered forms (hr_app/forms.py): their `clean` rules, which
 * repeat the API's validators for the same records, and the search box.
 */
module Forms {
  import opened Wrappers
  import opened TextFields
  import opened Models
  import opened Serializers

  const FutureObtainedMessage: string := "Дата получения не может быть в будущем."

  /** `EmployeeForm.clean_date_of_birth`: a birth date after today is refused. */
  function CleanDateOfBirth(dateOfBirth: Date, today: Date): (r: Outcome<string>)
    ensures r.Pass? <==> dateOfBirth <= today
    ensures r.Fail? ==> r.error == FutureBirthMessage
  {
    if dateOfBirth > today then Fail(FutureBirthMessage) else Pass
  }

  /** `FamilyForm.clean_number_of_children`: a negative count is refused. */
  function CleanNumberOfChildren(count: int): (r: Outcome<string>)
    ensures r.Pass? <==> count >= 0
    ensures r.Fail? ==> r.error == NegativeChildrenMessage
  {
    if count < 0 then Fail(NegativeChildrenMessage) else Pass
  }

  /**
   * `PassportInfoForm.clean`: only when both dates came through is an
   * expiry on or before the issue date refused.
   */
  function CleanPassportDates(dateIssued: Option<Date>, dateExpiry: Option<Date>): (r: Outcome<string>)
    ensures r.Fail? <==> dateIssued.Some? && dateExpiry.Some? && dateExpiry.value <= dateIssued.value
    ensures r.Fail? ==> r.error == PassportExpiryMessage
  {
    if dateIssued.Some? && dateExpiry.Some? && dateExpiry.value <= dateIssued.value then Fail(PassportExpiryMessage)
    else Pass
  }

  /**
   * `EducationForm.clean_graduation_year`: an empty field and the year 0,
   * both false in Python, pass; any other year after the current one is
   * refused.
   */
  function CleanGraduationYear(year: Option<int>, currentYear: int): (r: Outcome<string>)
    ensures r.Fail? <==> year.Some? && year.value != 0 && year.value > currentYear
    ensures r.Fail? ==> r.error == FutureGraduationMessage
  {
    match year
    case Some(y) => if y != 0 && y > currentYear then Fail(FutureGraduationMessage) else Pass
    case None => Pass
  }

  /**
   * `WorkExperienceForm.clean`: both dates are optional here; only when
   * both came through is an end before the start refused.
   */
  function CleanWorkDates(startDate: Option<Date>, endDate: Option<Date>): (r: Outcome<string>)
    ensures r.Fail? <==> startDate.Some? && endDate.Some? && endDate.value < startDate.value
    ensures r.Fail? ==> r.error == WorkDatesMessage
  {
    if startDate.Some? && endDate.Some? && endDate.value < startDate.value then Fail(WorkDatesMessage) else Pass
  }

  /** `EmployeeCertificationForm.clean_date_obtained`: a certificate cannot be obtained after today. */
  function CleanDateObtained(dateObtained: Date, today: Date): (r: Outcome<string>)
    ensures r.Pass? <==> dateObtained <= today
    ensures r.Fail? ==> r.error == FutureObtainedMessage
  {
    if dateObtained > today then Fail(FutureObtainedMessage) else Pass
  }

  // ---------------------------------------------------------------------
  // The catalogue creation forms.
  // ---------------------------------------------------------------------

  /**
   * `cleaned_data['name']` once the form's `name` field has run: the
   * stripped name, or nothing when the field refused it (blank, too long
   * or holding a NUL character).
   */
  function NameFieldValue(raw: string): (v: Option<string>)
    ensures v.Some? <==> CleanText(CatalogNameField, raw).Success?
    ensures v.Some? ==> v.value == Strip(raw)
  {
    match CleanText(CatalogNameField, raw)
    case Success(q) => Some(q)
    case Failure(_) => None
  }

  /**
   * `clean` of the skill, certification and language creation forms as
   * written: it reads `cleaned_data['name']` without a guard, so when the
   * field refused the name the lookup raises; otherwise a name equal to a
   * stored one up to letter case is refused with the catalogue's message.
   */
  function CleanReferenceNameAsWritten(kind: Reference, existing: set<string>, name: Option<string>): (r: Verdict)
    ensures name.None? <==> r == KeyErrorRaised
    ensures name.Some? ==> (r.Rejected? <==> exists n :: n in existing && SameIgnoringCase(n, name.value))
    ensures name.Some? ==> r == Accepted || r == Rejected(DuplicateNameMessage(kind))
  {
    match name
    case None => KeyErrorRaised
    case Some(q) =>
      if exists n :: n in existing && SameIgnoringCase(n, q) then Rejected(DuplicateNameMessage(kind)) else Accepted
  }

  /** A creation form submitted with a blank name crashes `clean` as written. */
  lemma BlankReferenceNameRaisesAsWritten(kind: Reference, existing: set<string>)
    ensures NameFieldValue("") == None
    ensures CleanReferenceNameAsWritten(kind, existing, NameFieldValue("")) == KeyErrorRaised
  {
  }

  /**
   * The same `clean` as intended: a name the field already refused is left
   * to the field's own error; any other is refused iff a stored name equals
   * it up to letter case.
   */
  function CleanReferenceName(kind: Reference, existing: set<string>, name: Option<string>): (r: Outcome<string>)
    ensures r.Fail? <==> name.Some? && exists n :: n in existing && SameIgnoringCase(n, name.value)
    ensures r.Fail? ==> r.error == DuplicateNameMessage(kind)
  {
    if name.Some? && exists n :: n in existing && SameIgnoringCase(n, name.value) then Fail(DuplicateNameMessage(kind))
    else Pass
  }

  /** On every name the field accepts, the corrected `clean` decides as the written one. */
  lemma ReferenceNameFixOnlyCoversMissing(kind: Reference, existing: set<string>, name: Option<string>)
    ensures name.Some? ==>
      (CleanReferenceName(kind, existing, name) == Pass <==> CleanReferenceNameAsWritten(kind, existing, name) == Accepted)
    ensures name.None? ==>
      CleanReferenceName(kind, existing, name) == Pass && CleanReferenceNameAsWritten(kind, existing, name) == KeyErrorRaised
  {
  }

  /**
   * The creation form and the API accept the same catalogue names. They
   * differ on the message for a name stored exactly as sent: the form gives
   * the catalogue's message, the API its uniqueness error.
   */
  lemma ReferenceNameRulesAgree(kind: Reference, existing: set<string>, raw: string)
    ensures (NameFieldValue(raw).Some? && CleanReferenceName(kind, existing, NameFieldValue(raw)).Pass?) <==>
      ValidateName(kind, existing, raw).Success?
    ensures NameFieldValue(raw).Some? && Strip(raw) in existing ==>
      CleanReferenceName(kind, existing, NameFieldValue(raw)) == Fail(DuplicateNameMessage(kind)) &&
      ValidateName(kind, existing, raw) == Failure(FieldRefused(true, []))
  {
  }

  // ---------------------------------------------------------------------
  // The forms and the API decide alike.
  // ---------------------------------------------------------------------

  /**
   * The forms and the API refuse the same birth dates and child counts.
   * The source writes each of these rules twice, once in the form and once
   * in the serializer; this lemma is what ties the two copies together.
   */
  lemma FormsAgreeWithApi(dateOfBirth: Date, today: Date, count: int)
    ensures CleanDateOfBirth(dateOfBirth, today) == ValidateDateOfBirth(dateOfBirth, today)
    ensures CleanNumberOfChildren(count) == ValidateNumberOfChildren(count)
  {
  }

  /**
   * Given both passport dates, the form and the API decide alike. Missing
   * one, the form passes where the API's check, as written, raises: the
   * form's guarded rule is the one the API evidently intends.
   */
  lemma PassportRulesAgree(dateIssued: Option<Date>, dateExpiry: Option<Date>)
    ensures dateIssued.Some? && dateExpiry.Some? ==>
      CleanPassportDates(dateIssued, dateExpiry) == ValidatePassport(dateIssued.value, dateExpiry.value)
    ensures CleanPassportDates(dateIssued, dateExpiry) == Pass <==>
      ValidatePassportAsWritten(dateIssued, dateExpiry) in {Accepted, KeyErrorRaised}
    ensures dateIssued.None? || dateExpiry.None? ==>
      CleanPassportDates(dateIssued, dateExpiry) == Pass && ValidatePassportAsWritten(dateIssued, dateExpiry) == KeyErrorRaised
  {
  }

  /**
   * Given a start date, the form and the API decide alike on the end date.
   * Missing the start date, the form passes; the API's check, as written,
   * raises as soon as an end date came through.
   */
  lemma WorkDateRulesAgree(startDate: Option<Date>, endDate: Option<Date>)
    ensures startDate.Some? ==> CleanWorkDates(startDate, endDate) == ValidateWorkExperience(startDate.value, endDate)
    ensures CleanWorkDates(startDate, endDate) == Pass <==>
      ValidateWorkExperienceAsWritten(startDate, endDate) in {Accepted, KeyErrorRaised}
    ensures startDate.None? ==> CleanWorkDates(startDate, endDate) == Pass
    ensures startDate.None? && endDate.Some? ==> ValidateWorkExperienceAsWritten(startDate, endDate) == KeyErrorRaised
  {
  }

  /**
   * The form's graduation-year rule is the corrected API rule once the
   * current year is not negative (then the year 0 passes both); the rule as
   * written in the API differs from it on a missing year only.
   */
  lemma GraduationYearRulesAgree(year: Option<int>, currentYear: int)
    requires currentYear >= 0
    ensures CleanGraduationYear(year, currentYear) == ValidateGraduationYear(year, currentYear)
    ensures year.None? ==>
      (CleanGraduationYear(year, currentYear) == Pass &&
       ValidateGraduationYearAsWritten(year, currentYear) == TypeErrorRaised)
  {
  }

  // ---------------------------------------------------------------------
  // The search box.
  // ---------------------------------------------------------------------

  /** `EmployeeSearchForm`'s `query` field: optional, three to a hundred characters. */
  const QueryField := TextField(false, 3, 100)

  /**
   * `EmployeeSearchForm`'s `query` field: stripped; an empty or missing
   * query is accepted as the empty string; any other must have three to a
   * hundred characters and no NUL character, and a refusal lists every
   * check it failed.
   */
  function CleanQuery(raw: Option<string>): (r: Result<string, seq<TextError>>)
    ensures r.Success? ==> r.value == Strip(raw.GetOr(""))
    ensures r.Success? ==> r.value == [] || QueryField.minLength <= |r.value| <= QueryField.maxLength
    ensures r.Failure? <==> var q := Strip(raw.GetOr(""));
      q != [] && (|q| < QueryField.minLength || |q| > QueryField.maxLength || '\0' in q)
    ensures r.Failure? ==> r.error == ValidatorErrors(QueryField, Strip(raw.GetOr("")))
  {
    CleanText(QueryField, raw.GetOr(""))
  }

  /** An accepted query, submitted again, comes back unchanged. */
  lemma CleanQueryIdempotent(raw: Option<string>)
    requires CleanQuery(raw).Success?
    ensures CleanQuery(Some(CleanQuery(raw).value)) == CleanQuery(raw)
  {
    CleanTextIdempotent(QueryField, raw.GetOr(""));
  }
}

=== FILE: js_values.dfy ===
/**
 * The JavaScript values the employee editor keeps in its state. Text
 * inputs and selects deliver strings, the server delivers numbers,
 * strings and null, and a missing key reads as `undefined`.
 */
module JsValues {

  /** JavaScript numbers are modelled by the integers the editor sees (ids, counts, years). */
  datatype JsValue = Undefined | Null | Num(n: int) | Str(s: string)

  /** A plain JavaScript object. */
  type Obj = map<string, JsValue>

  /** Property access `o[key]`: a missing key reads as `undefined`. */
  function Get(o: Obj, key: string): JsValue {
    if key in o then o[key] else Undefined
  }

  /** JavaScript truthiness: `undefined`, `null`, `0` and `''` are falsy. */
  predicate Truthy(v: JsValue) {
    match v
    case Undefined => false
    case Null => false
    case Num(n) => n != 0
    case Str(s) => s != ""
  }

  /** The `a || b` operator: `a` when it is truthy, otherwise `b`. */
  function Or(a: JsValue, b: JsValue): JsValue {
    if Truthy(a) then a else b
  }
}

=== FILE: models.dfy ===
/**
 * The stored shape of an employee record (hr_app/models.py): the choice
 * lists of the enumerated columns, the formats of the phone and passport
 * numbers, the length bounds of the name columns, the column defaults and
 * the one-association-per-reference rule.
 */
module Models {
  import opened Wrappers
  import opened TextFields

  /** A calendar date as a day number: a later date is a larger number. */
  type Date = int

  /** A value Python hands to the ORM for one column. */
  datatype PyValue = PyNone | PyInt(i: int) | PyStr(s: string) | PyDate(d: Date)

  /** The keyword arguments of `Model.objects.create(**data)` or of a run of `setattr`. */
  type Fields = map<string, PyValue>

  /** Values a column takes when `create` is not given one: a nullable column gets `None`. */
  const EmployeeDefaults: Fields := map["patronymic" := PyNone]
  const EducationDefaults: Fields := map["graduation_year" := PyNone]
  const WorkExperienceDefaults: Fields := map["end_date" := PyNone, "responsibilities" := PyNone]
  const DefaultNumberOfChildren := 0
  const FamilyDefaults: Fields := map["number_of_children" := PyInt(DefaultNumberOfChildren)]

  /** The catalogue tables an employee links to. */
  datatype Reference = SkillRef | CertificationRef | LanguageRef

  /** The `name` column of each catalogue: unique, at most a hundred characters. */
  const CatalogNameMaxLength := 100

  // ---------------------------------------------------------------------
  // Enumerated columns: the stored code of each choice, and its parser.
  // ---------------------------------------------------------------------

  const GenderMaxLength := 1
  const MaritalStatusMaxLength := 10
  const EducationLevelMaxLength := 20
  const ProficiencyMaxLength := 12

  datatype Gender = Male | Female {
    /** The stored code; it fits the one-character column. */
    function Code(): (c: string)
      ensures 0 < |c| <= GenderMaxLength
    {
      match this
      case Male => "M"
      case Female => "F"
    }
  }

  function ParseGender(s: string): (g: Option<Gender>)
    ensures g.Some? ==> g.value.Code() == s
    ensures g.None? ==> forall x: Gender :: x.Code() != s
  {
    if s == "M" then Some(Male)
    else if s == "F" then Some(Female)
    else None
  }

  datatype MaritalStatus = Single | Married | Divorced | Widowed {
    function Code(): (c: string)
      ensures 0 < |c| <= MaritalStatusMaxLength
    {
      match this
      case Single => "single"
      case Married => "married"
      case Divorced => "divorced"
      case Widowed => "widowed"
    }
  }

  function ParseMaritalStatus(s: string): (m: Option<MaritalStatus>)
    ensures m.Some? ==> m.value.Code() == s
    ensures m.None? ==> forall x: MaritalStatus :: x.Code() != s
  {
    if s == "single" then Some(Single)
    else if s == "married" then Some(Married)
    else if s == "divorced" then Some(Divorced)
    else if s == "widowed" then Some(Widowed)
    else None
  }

  datatype EducationLevel = Secondary | Bachelor | Master | Phd {
    function Code(): (c: string)
      ensures 0 < |c| <= EducationLevelMaxLength
    {
      match this
      case Secondary => "secondary"
      case Bachelor => "bachelor"
      case Master => "master"
      case Phd => "phd"
    }
  }

  function ParseEducationLevel(s: string): (l: Option<EducationLevel>)
    ensures l.Some? ==> l.value.Code() == s
    ensures l.None? ==> forall x: EducationLevel :: x.Code() != s
  {
    if s == "secondary" then Some(Secondary)
    else if s == "bachelor" then Some(Bachelor)
    else if s == "master" then Some(Master)
    else if s == "phd" then Some(Phd)
    else None
  }

  datatype Proficiency = Beginner | Intermediate | Advanced | Native {
    function Code(): (c: string)
      ensures 0 < |c| <= ProficiencyMaxLength
    {
      match this
      case Beginner => "beginner"
      case Intermediate => "intermediate"
      case Advanced => "advanced"
      case Native => "native"
    }
  }

  function ParseProficiency(s: string): (p: Option<Proficiency>)
    ensures p.Some? ==> p.value.Code() == s
    ensures p.None? ==> forall x: Proficiency :: x.Code() != s
  {
    if s == "beginner" then Some(Beginner)
    else if s == "intermediate" then Some(Intermediate)
    else if s == "advanced" then Some(Advanced)
    else if s == "native" then Some(Native)
    else None
  }

  /** Every choice is read back from its stored code: the codes are distinct. */
  lemma ChoicesRoundTrip(g: Gender, m: MaritalStatus, l: EducationLevel, p: Proficiency)
    ensures ParseGender(g.Code()) == Some(g)
    ensures ParseMaritalStatus(m.Code()) == Some(m)
    ensures ParseEducationLevel(l.Code()) == Some(l)
    ensures ParseProficiency(p.Code()) == Some(p)
  {
  }

  // ---------------------------------------------------------------------
  // Text formats.
  // ---------------------------------------------------------------------

  predicate IsDigit(c: char) {
    '0' <= c <= '9'
  }

  predicate AllDigits(s: string) {
    forall i :: 0 <= i < |s| ==> IsDigit(s[i])
  }

  /** `\d{9,15}`: nine to fifteen digits. */
  predicate PhoneDigits(s: string) {
    9 <= |s| <= 15 && AllDigits(s)
  }

  /** `1?\d{9,15}`: an optional country code 1, then the digits. */
  predicate PhoneAfterPlus(s: string) {
    PhoneDigits(s) || (|s| > 0 && s[0] == '1' && PhoneDigits(s[1..]))
  }

  /** The phone pattern `^\+?1?\d{9,15}$`: an optional plus, then the rest. */
  predicate IsPhoneNumber(s: string) {
    PhoneAfterPlus(s) || (|s| > 0 && s[0] == '+' && PhoneAfterPlus(s[1..]))
  }

  const PhoneMaxLength := 17

  /** The phone number with a leading plus sign removed. */
  function WithoutPlus(s: string): (t: string)
    ensures |s| > 0 && s[0] == '+' ==> s == "+" + t
    ensures !(|s| > 0 && s[0] == '+') ==> t == s
  {
    if |s| > 0 && s[0] == '+' then s[1..] else s
  }

  /**
   * A phone number matches the pattern iff, past an optional plus sign, it
   * is all digits, nine to fifteen of them, or ten to sixteen when the
   * first is the country code 1.
   */
  lemma PhoneNumberShape(s: string)
    ensures IsPhoneNumber(s) <==>
      var t := WithoutPlus(s);
      AllDigits(t) && (9 <= |t| <= 15 || (10 <= |t| <= 16 && t[0] == '1'))
  {
    var t := WithoutPlus(s);
    if |t| > 0 && t[0] == '1' && AllDigits(t[1..]) {
      assert AllDigits(t) by {
        forall i | 0 <= i < |t| ensures IsDigit(t[i]) {
          if i > 0 {
            assert t[i] == t[1..][i - 1];
          }
        }
      }
    }
    if |s| > 0 && s[0] == '+' {
      assert !IsDigit(s[0]);
      assert !PhoneAfterPlus(s);
    }
  }

  /** The column's 17-character bound never rejects a number the pattern accepts. */
  lemma PhoneNumberFitsColumn(s: string)
    requires IsPhoneNumber(s)
    ensures |s| <= PhoneMaxLength
  {
    PhoneNumberShape(s);
  }

  /** ... and it is reached: a plus, the country code and fifteen digits. */
  lemma LongestPhoneNumber()
    ensures IsPhoneNumber("+1234567890123456")
    ensures |"+1234567890123456"| == PhoneMaxLength
  {
    var s := "+1234567890123456";
    assert s[1..][1..] == "234567890123456";
    assert PhoneDigits(s[1..][1..]);
  }

  predicate IsUpperLetter(c: char) {
    'A' <= c <= 'Z'
  }

  const PassportNumberLength := 9

  /** The passport pattern `^[A-Z]{2}\d{7}$`: two capital letters, then seven digits. */
  predicate IsPassportNumber(s: string) {
    |s| == PassportNumberLength && IsUpperLetter(s[0]) && IsUpperLetter(s[1]) && AllDigits(s[2..])
  }

  /** Split after its two-letter series, a passport number is seven digits. */
  lemma PassportNumberParts(series: string, number: string)
    requires |series| == 2
    ensures IsPassportNumber(series + number) <==>
      (IsUpperLetter(series[0]) && IsUpperLetter(series[1]) && |number| == 7 && AllDigits(number))
  {
    assert (series + number)[2..] == number;
  }

  // ---------------------------------------------------------------------
  // Names.
  // ---------------------------------------------------------------------

  const NameMinLength := 2
  const NameMaxLength := 30

  /** `first_name` and `last_name`: at least two and at most thirty characters. */
  predicate IsValidName(s: string) {
    NameMinLength <= |s| <= NameMaxLength
  }

  /** `patronymic`: optional (blank and null allowed), at most thirty characters. */
  const PatronymicMaxLength := 30

  /** The text field a form or serializer builds for `first_name` and `last_name`. */
  const PersonNameField := TextField(true, NameMinLength, NameMaxLength)

  /** The text field built for `patronymic`: not required, no lower bound. */
  const PatronymicField := TextField(false, 0, PatronymicMaxLength)

  /**
   * What the name columns' fields let through: a first or last name is a
   * valid name, a patronymic has at most thirty characters, and a blank
   * patronymic is accepted as empty while a blank first or last name is
   * refused as missing.
   */
  lemma NameFieldsBoundNames(raw: string)
    ensures CleanText(PersonNameField, raw).Success? ==> IsValidName(CleanText(PersonNameField, raw).value)
    ensures CleanText(PatronymicField, raw).Success? ==> |CleanText(PatronymicField, raw).value| <= PatronymicMaxLength
    ensures Strip(raw) == [] ==> CleanText(PatronymicField, raw) == Success([])
    ensures Strip(raw) == [] ==> CleanText(PersonNameField, raw) == Failure([Required])
    ensures Strip(raw) != [] && '\0' !in Strip(raw) ==>
      (CleanText(PatronymicField, raw).Success? <==> |Strip(raw)| <= PatronymicMaxLength)
  {
  }

  /** `Employee.__str__`: the last name, a space, the first name. */
  function DisplayName(firstName: string, lastName: string): (r: string)
    ensures |r| == |lastName| + 1 + |firstName|
    ensures r[..|lastName|] == lastName && r[|lastName|] == ' ' && r[|lastName| + 1..] == firstName
  {
    lastName + " " + firstName
  }

  /** The display name of valid names has between five and sixty-one characters. */
  lemma DisplayNameLength(firstName: string, lastName: string)
    requires IsValidName(firstName) && IsValidName(lastName)
    ensures 2 * NameMinLength + 1 <= |DisplayName(firstName, lastName)| <= 2 * NameMaxLength + 1
  {
  }

  /**
   * When last names hold no space, the display name tells the first and
   * last name apart: two employees share it only if they share both.
   */
  lemma DisplayNameDeterminesNames(f1: string, l1: string, f2: string, l2: string)
    requires ' ' !in l1 && ' ' !in l2
    requires DisplayName(f1, l1) == DisplayName(f2, l2)
    ensures l1 == l2 && f1 == f2
  {
  }

  // ---------------------------------------------------------------------
  // Associations with the catalogues.
  // ---------------------------------------------------------------------

  /**
   * `unique_together = ('employee', <reference>)`: an employee links to a
   * given skill, certification or language at most once.
   */
  predicate NoDuplicates(ids: seq<int>) {
    forall i, j :: 0 <= i < j < |ids| ==> ids[i] != ids[j]
  }

  /** Appending an id keeps the ids distinct iff it is not already there. */
  lemma NoDuplicatesAppend(ids: seq<int>, id: int)
    requires NoDuplicates(ids)
    ensures NoDuplicates(ids + [id]) <==> id !in ids
  {
    var s := ids + [id];
    if id in ids {
      var i :| 0 <= i < |ids| && ids[i] == id;
      assert s[i] == s[|ids|];
    }
  }
}

=== FILE: serializers.dfy ===
/**
 * The server side of saving an employee (hr_app/serializers.py): the field
 * and object validators with their messages, and the nested `create` and
 * `update` of `EmployeeSerializer`, which write the employee row, its
 * family and passport rows, its education and work-experience rows and its
 * links to the skill, certification and language catalogues inside one
 * transaction.
 */
module Serializers {
  import opened Wrappers
  import opened TextFields
  import opened Models

  // ---------------------------------------------------------------------
  // Validation messages.
  // ---------------------------------------------------------------------

  const DuplicateSkillMessage: string := "Навык с таким названием уже существует."
  const DuplicateCertificationMessage: string := "Такой сертификат уже существует."
  const DuplicateLanguageMessage: string := "Такой язык уже существует."
  const NegativeChildrenMessage: string := "Количество детей не может быть отрицательным."
  const PassportExpiryMessage: string := "Срок действия должен быть позже даты выдачи."
  const FutureGraduationMessage: string := "Год окончания не может быть в будущем."
  const WorkDatesMessage: string := "Дата окончания работы не может быть раньше даты начала."
  const FutureBirthMessage: string := "Дата рождения не может быть в будущем."

  function DuplicateNameMessage(kind: Reference): string {
    match kind
    case SkillRef => DuplicateSkillMessage
    case CertificationRef => DuplicateCertificationMessage
    case LanguageRef => DuplicateLanguageMessage
  }

  // ---------------------------------------------------------------------
  // Catalogue names, compared as `name__iexact` does.
  // ---------------------------------------------------------------------

  function FoldCase(c: char): char {
    if 'A' <= c <= 'Z' then (c as int + 32) as char else c
  }

  function Folded(s: string): (r: string)
    ensures |r| == |s|
    ensures forall i :: 0 <= i < |s| ==> r[i] == FoldCase(s[i])
  {
    seq(|s|, i requires 0 <= i < |s| => FoldCase(s[i]))
  }

  predicate SameIgnoringCase(a: string, b: string) {
    Folded(a) == Folded(b)
  }

  /** No two names of a catalogue differ only in letter case. */
  predicate DistinctIgnoringCase(names: set<string>) {
    forall a, b :: a in names && b in names && SameIgnoringCase(a, b) ==> a == b
  }

  /** The catalogue tables: each maps an id to the name stored under it. */
  datatype Catalog = Catalog(skills: map<int, string>, certifications: map<int, string>, languages: map<int, string>) {
    function Table(kind: Reference): map<int, string> {
      match kind
      case SkillRef => skills
      case CertificationRef => certifications
      case LanguageRef => languages
    }

    function Ids(kind: Reference): set<int> {
      Table(kind).Keys
    }

    function Names(kind: Reference): set<string> {
      Table(kind).Values
    }
  }

  /**
   * The `name` field the three catalogue serializers derive from the
   * column: required, at most a hundred characters.
   */
  const CatalogNameField := TextField(true, 0, CatalogNameMaxLength)

  /**
   * Why the API refuses a catalogue name: the field's own checks (blank,
   * length, NUL, and the exact-match uniqueness check `unique=True` adds),
   * which run first and report all their errors; or, once those pass,
   * `validate_name` with the catalogue's message.
   */
  datatype NameRefusal = FieldRefused(notUnique: bool, errors: seq<TextError>) | DuplicateName(message: string)

  /**
   * The `name` field of the skill, certification and language serializers
   * followed by their `validate_name`: the stripped name is accepted iff
   * the field takes it and no stored name equals it up to letter case. A
   * name stored exactly as sent is refused by the uniqueness check, before
   * `validate_name` runs; only a variant in another letter case gets the
   * catalogue's message.
   */
  function ValidateName(kind: Reference, existing: set<string>, raw: string): (r: Result<string, NameRefusal>)
    ensures r.Success? <==>
      CleanText(CatalogNameField, raw).Success? && forall n :: n in existing ==> !SameIgnoringCase(n, Strip(raw))
    ensures r.Success? ==> r.value == Strip(raw)
    ensures CleanText(CatalogNameField, raw).Failure? ==>
      r.Failure? && r.error.FieldRefused? && r.error.errors == CleanText(CatalogNameField, raw).error
    ensures CleanText(CatalogNameField, raw).Success? && Strip(raw) in existing ==>
      r == Failure(FieldRefused(true, []))
    ensures r == Failure(DuplicateName(DuplicateNameMessage(kind))) <==>
      CleanText(CatalogNameField, raw).Success? && Strip(raw) !in existing &&
      exists n :: n in existing && SameIgnoringCase(n, Strip(raw))
    ensures r.Failure? && r.error.DuplicateName? ==> r.error.message == DuplicateNameMessage(kind)
  {
    var q := Strip(raw);
    if q == [] then Failure(FieldRefused(false, [Required]))
    else
      var errs := ValidatorErrors(CatalogNameField, q);
      if q in existing || errs != [] then Failure(FieldRefused(q in existing, errs))
      else if exists n :: n in existing && SameIgnoringCase(n, q) then Failure(DuplicateName(DuplicateNameMessage(kind)))
      else Success(q)
  }

  /** A name the checks let through keeps the catalogue free of case variants. */
  lemma AcceptedNameKeepsCatalogDistinct(kind: Reference, existing: set<string>, raw: string)
    requires DistinctIgnoringCase(existing)
    requires ValidateName(kind, existing, raw).Success?
    ensures DistinctIgnoringCase(existing + {ValidateName(kind, existing, raw).value})
  {
  }

  /**
   * Once a name is stored, every submission that strips to it or to a
   * spelling of it in other letter case is refused: the exact name by the
   * uniqueness check, another spelling with the catalogue's message.
   */
  lemma StoredNameRefusedInAnyCase(kind: Reference, existing: set<string>, value: string, variant: string)
    requires SameIgnoringCase(value, Strip(variant))
    ensures ValidateName(kind, existing + {value}, variant).Failure?
    ensures Strip(variant) == value && CleanText(CatalogNameField, variant).Success? ==>
      ValidateName(kind, existing + {value}, variant) == Failure(FieldRefused(true, []))
    ensures Strip(variant) !in existing + {value} && CleanText(CatalogNameField, variant).Success? ==>
      ValidateName(kind, existing + {value}, variant) == Failure(DuplicateName(DuplicateNameMessage(kind)))
  {
  }

  // ---------------------------------------------------------------------
  // Field and object validators.
  // ---------------------------------------------------------------------

  /** `FamilySerializer.validate_number_of_children`: a negative count is refused. */
  function ValidateNumberOfChildren(count: int): (r: Outcome<string>)
    ensures r.Pass? <==> count >= 0
    ensures r.Fail? ==> r.error == NegativeChildrenMessage
  {
    if count < 0 then Fail(NegativeChildrenMessage) else Pass
  }

  /** `PassportInfoSerializer.validate`: the passport must expire strictly after it was issued. */
  function ValidatePassport(dateIssued: Date, dateExpiry: Date): (r: Outcome<string>)
    ensures r.Pass? <==> dateIssued < dateExpiry
    ensures r.Fail? ==> r.error == PassportExpiryMessage
  {
    if dateExpiry <= dateIssued then Fail(PassportExpiryMessage) else Pass
  }

  /**
   * What a validator that Python evaluates can end in: it returns, it
   * raises `ValidationError` with a message, or it raises `TypeError` or
   * `KeyError`, which the frameworks do not catch (a server error).
   */
  datatype Verdict = Accepted | Rejected(message: string) | TypeErrorRaised | KeyErrorRaised

  /**
   * `PassportInfoSerializer.validate` as written, on the dates that came
   * through. On a partial update (PATCH) the framework skips a missing
   * field, and `data['date_expiry']` or `data['date_issued']` then raises.
   */
  function ValidatePassportAsWritten(dateIssued: Option<Date>, dateExpiry: Option<Date>): (r: Verdict)
    ensures r == KeyErrorRaised <==> dateIssued.None? || dateExpiry.None?
    ensures r == Accepted <==> dateIssued.Some? && dateExpiry.Some? && ValidatePassport(dateIssued.value, dateExpiry.value).Pass?
    ensures r != KeyErrorRaised && r != Accepted ==> r == Rejected(PassportExpiryMessage)
  {
    if dateExpiry.None? || dateIssued.None? then KeyErrorRaised
    else if dateExpiry.value <= dateIssued.value then Rejected(PassportExpiryMessage)
    else Accepted
  }

  /** A partial update that sends a passport without its issue date makes the save fail with a server error. */
  lemma PartialPassportRaisesAsWritten(dateExpiry: Date)
    ensures ValidatePassportAsWritten(None, Some(dateExpiry)) == KeyErrorRaised
  {
  }

  /**
   * `EducationSerializer.validate_graduation_year` as written. The column
   * is nullable, so the framework hands an explicit null to the validator
   * as `None`, and `None > current_year` raises.
   */
  function ValidateGraduationYearAsWritten(year: Option<int>, currentYear: int): (r: Verdict)
    ensures year.None? ==> r == TypeErrorRaised
    ensures year.Some? ==> (r == Accepted <==> year.value <= currentYear)
    ensures year.Some? && year.value > currentYear ==> r == Rejected(FutureGraduationMessage)
  {
    match year
    case None => TypeErrorRaised
    case Some(y) => if y > currentYear then Rejected(FutureGraduationMessage) else Accepted
  }

  /** An education entry sent with an empty graduation year makes the save fail with a server error. */
  lemma NullGraduationYearRaisesAsWritten()
    ensures ValidateGraduationYearAsWritten(None, 2024) == TypeErrorRaised
  {
  }

  /**
   * The graduation-year check as intended: a missing year passes (the
   * column allows it), a year after the current one is refused.
   */
  function ValidateGraduationYear(year: Option<int>, currentYear: int): (r: Outcome<string>)
    ensures r.Fail? <==> year.Some? && year.value > currentYear
    ensures r.Fail? ==> r.error == FutureGraduationMessage
  {
    if year.Some? && year.value > currentYear then Fail(FutureGraduationMessage) else Pass
  }

  /** On every actual year the corrected check decides exactly as the written one. */
  lemma GraduationYearFixOnlyCoversNull(year: Option<int>, currentYear: int)
    ensures year.Some? ==>
      (ValidateGraduationYear(year, currentYear) == Pass <==> ValidateGraduationYearAsWritten(year, currentYear) == Accepted)
    ensures year.None? ==>
      ValidateGraduationYear(year, currentYear) == Pass && ValidateGraduationYearAsWritten(year, currentYear) == TypeErrorRaised
  {
  }

  /**
   * `WorkExperienceSerializer.validate`: an end date, when given, may not
   * come before the start date; ending on the start day is allowed.
   */
  function ValidateWorkExperience(startDate: Date, endDate: Option<Date>): (r: Outcome<string>)
    ensures r.Fail? <==> endDate.Some? && endDate.value < startDate
    ensures r.Fail? ==> r.error == WorkDatesMessage
  {
    match endDate
    case Some(e) => if e < startDate then Fail(WorkDatesMessage) else Pass
    case None => Pass
  }

  /**
   * `WorkExperienceSerializer.validate` as written, on the dates that came
   * through: an end date is compared with `data['start_date']`, which
   * raises when a partial update (PATCH) left the start date out.
   */
  function ValidateWorkExperienceAsWritten(startDate: Option<Date>, endDate: Option<Date>): (r: Verdict)
    ensures r == KeyErrorRaised <==> endDate.Some? && startDate.None?
    ensures startDate.Some? ==> (r == Accepted <==> ValidateWorkExperience(startDate.value, endDate).Pass?)
    ensures endDate.None? ==> r == Accepted
    ensures r != KeyErrorRaised && r != Accepted ==> r == Rejected(WorkDatesMessage)
  {
    match endDate
    case None => Accepted
    case Some(e) =>
      if startDate.None? then KeyErrorRaised
      else if e < startDate.value then Rejected(WorkDatesMessage)
      else Accepted
  }

  /** A partial update that sends a work entry's end date without its start date makes the save fail with a server error. */
  lemma PartialWorkDatesRaiseAsWritten(endDate: Date)
    ensures ValidateWorkExperienceAsWritten(None, Some(endDate)) == KeyErrorRaised
  {
  }

  /** `EmployeeSerializer.validate_date_of_birth`: today is allowed, a later day is refused. */
  function ValidateDateOfBirth(dateOfBirth: Date, today: Date): (r: Outcome<string>)
    ensures r.Pass? <==> dateOfBirth <= today
    ensures r.Fail? ==> r.error == FutureBirthMessage
  {
    if dateOfBirth > today then Fail(FutureBirthMessage) else Pass
  }

  // ---------------------------------------------------------------------
  // The stored employee and what a save sends.
  // ---------------------------------------------------------------------

  /** One `EmployeeSkill`, `EmployeeCertification` or `EmployeeLanguage` row. */
  datatype Association = Association(refId: int, attr: PyValue)

  function RefIds(links: seq<Association>): (ids: seq<int>)
    ensures |ids| == |links|
    ensures forall j :: 0 <= j < |links| ==> ids[j] == links[j].refId
  {
    seq(|links|, j requires 0 <= j < |links| => links[j].refId)
  }

  /**
   * An employee with every row that hangs off it. The family and passport
   * rows are separate tables: an employee entered through the admin site
   * may have neither.
   */
  datatype EmployeeRow = EmployeeRow(
    attrs: Fields,
    family: Option<Fields>,
    passportInfo: Option<Fields>,
    educations: seq<Fields>,
    workExperiences: seq<Fields>,
    skills: seq<Association>,
    certifications: seq<Association>,
    languages: seq<Association>)
  {
    function Links(kind: Reference): seq<Association> {
      match kind
      case SkillRef => skills
      case CertificationRef => certifications
      case LanguageRef => languages
    }
  }

  /** The `unique_together` rule on all three association tables. */
  predicate UniqueLinks(row: EmployeeRow) {
    NoDuplicates(RefIds(row.skills)) && NoDuplicates(RefIds(row.certifications)) && NoDuplicates(RefIds(row.languages))
  }

  /** `validated_data`: the scalar fields sent, and each nested part if it was sent. */
  datatype EmployeeData = EmployeeData(
    attrs: Fields,
    family: Option<Fields>,
    passportInfo: Option<Fields>,
    educations: Option<seq<Fields>>,
    workExperiences: Option<seq<Fields>>,
    skills: Option<seq<Fields>>,
    certifications: Option<seq<Fields>>,
    languages: Option<seq<Fields>>)
  {
    function Entries(kind: Reference): Option<seq<Fields>> {
      match kind
      case SkillRef => skills
      case CertificationRef => certifications
      case LanguageRef => languages
    }
  }

  /** The one-to-one rows of an employee. */
  datatype Part = FamilyRow | PassportRow

  /** Why a save is rolled back. */
  datatype StoreError =
    | DoesNotExist(kind: Reference, id: PyValue)  // the `ValidationError` raised for an unknown id
    | IntegrityError(kind: Reference, refId: int)   // a second link to one reference, or a missing required column
    | RelatedObjectDoesNotExist(part: Part)        // `instance.family` or `instance.passport_info` of an employee without that row

  /** `dict.get(key)`. */
  function Lookup(f: Fields, key: string): PyValue {
    if key in f then f[key] else PyNone
  }

  function IdKey(kind: Reference): string {
    match kind
    case SkillRef => "skill_id"
    case CertificationRef => "certification_id"
    case LanguageRef => "language_id"
  }

  /** The id an entry names. */
  function RefId(kind: Reference, entry: Fields): PyValue {
    Lookup(entry, IdKey(kind))
  }

  /** The column stored beside the link: none for a skill. */
  function Attr(kind: Reference, entry: Fields): PyValue {
    match kind
    case SkillRef => PyNone
    case CertificationRef => Lookup(entry, "date_obtained")
    case LanguageRef => Lookup(entry, "proficiency_level")
  }

  /** `Model.objects.get(id=...)` finds a row. */
  predicate Resolves(id: PyValue, known: set<int>) {
    id.PyInt? && id.i in known
  }

  /** `date_obtained` and `proficiency_level` are NOT NULL columns. */
  predicate Insertable(kind: Reference, entry: Fields) {
    kind == SkillRef || Attr(kind, entry) != PyNone
  }

  /** Every entry names a known id, carries its required column, and no id repeats. */
  predicate Linkable(kind: Reference, entries: seq<Fields>, known: set<int>) {
    (forall j :: 0 <= j < |entries| ==> Resolves(RefId(kind, entries[j]), known) && Insertable(kind, entries[j])) &&
    (forall i, j :: 0 <= i < j < |entries| ==> RefId(kind, entries[i]) != RefId(kind, entries[j]))
  }

  /** The link an acceptable entry becomes. */
  predicate LinksEntry(kind: Reference, link: Association, entry: Fields) {
    PyInt(link.refId) == RefId(kind, entry) && link.attr == Attr(kind, entry)
  }

  /**
   * The loop over the skill, certification or language entries of a save:
   * each entry, in order, is looked up and linked, and the first entry that
   * names an unknown id, repeats an id or lacks its column aborts the save.
   */
  function Link(kind: Reference, entries: seq<Fields>, known: set<int>): (r: Result<seq<Association>, StoreError>)
    ensures r.Success? ==> |r.value| == |entries|
    ensures r.Failure? ==> (r.error.DoesNotExist? || r.error.IntegrityError?) && r.error.kind == kind
    decreases |entries|
  {
    if entries == [] then Success([])
    else
      var n := |entries| - 1;
      var linked :- Link(kind, entries[..n], known);
      var id := RefId(kind, entries[n]);
      if !Resolves(id, known) then Failure(DoesNotExist(kind, id))
      else if !Insertable(kind, entries[n]) || id.i in RefIds(linked) then Failure(IntegrityError(kind, id.i))
      else Success(linked + [Association(id.i, Attr(kind, entries[n]))])
  }

  /** A list is linkable iff all but its last entry are and the last one is acceptable after them. */
  lemma LinkableSnoc(kind: Reference, entries: seq<Fields>, known: set<int>)
    requires entries != []
    ensures var n := |entries| - 1;
      Linkable(kind, entries, known) <==>
        Linkable(kind, entries[..n], known) &&
        Resolves(RefId(kind, entries[n]), known) && Insertable(kind, entries[n]) &&
        forall j :: 0 <= j < n ==> RefId(kind, entries[j]) != RefId(kind, entries[n])
  {
    var n := |entries| - 1;
    assert forall j :: 0 <= j < n ==> entries[..n][j] == entries[j];
  }

  /** Links made one per entry name exactly the ids the entries name. */
  lemma LinkedIdsAreEntryIds(kind: Reference, linked: seq<Association>, entries: seq<Fields>, id: int)
    requires |linked| == |entries|
    requires forall j :: 0 <= j < |entries| ==> LinksEntry(kind, linked[j], entries[j])
    ensures id in RefIds(linked) <==> exists j :: 0 <= j < |entries| && RefId(kind, entries[j]) == PyInt(id)
  {
    if id in RefIds(linked) {
      var j :| 0 <= j < |linked| && RefIds(linked)[j] == id;
      assert LinksEntry(kind, linked[j], entries[j]);
    }
    if exists j :: 0 <= j < |entries| && RefId(kind, entries[j]) == PyInt(id) {
      var j :| 0 <= j < |entries| && RefId(kind, entries[j]) == PyInt(id);
      assert LinksEntry(kind, linked[j], entries[j]);
      assert RefIds(linked)[j] == id;
    }
  }

  /**
   * Linking succeeds exactly on linkable lists, and then makes one link per
   * entry, in the entries' order, each naming its entry's id and column.
   */
  lemma {:induction false} LinkSucceedsIffLinkable(kind: Reference, entries: seq<Fields>, known: set<int>)
    ensures Link(kind, entries, known).Success? <==> Linkable(kind, entries, known)
    ensures Link(kind, entries, known).Success? ==>
      forall j :: 0 <= j < |entries| ==> LinksEntry(kind, Link(kind, entries, known).value[j], entries[j])
    decreases |entries|
  {
    if entries != [] {
      var n := |entries| - 1;
      var p := entries[..n];
      LinkSucceedsIffLinkable(kind, p, known);
      LinkableSnoc(kind, entries, known);
      assert forall j :: 0 <= j < n ==> p[j] == entries[j];
      var rp := Link(kind, p, known);
      var id := RefId(kind, entries[n]);
      if rp.Success? && Resolves(id, known) {
        LinkedIdsAreEntryIds(kind, rp.value, p, id.i);
      }
    }
  }

  /** The links made from a linkable list name each reference once. */
  lemma LinkedOnce(kind: Reference, entries: seq<Fields>, known: set<int>)
    requires Link(kind, entries, known).Success?
    ensures NoDuplicates(RefIds(Link(kind, entries, known).value))
  {
    LinkSucceedsIffLinkable(kind, entries, known);
    var links := Link(kind, entries, known).value;
    forall i, j | 0 <= i < j < |links|
      ensures RefIds(links)[i] != RefIds(links)[j]
    {
      assert LinksEntry(kind, links[i], entries[i]) && LinksEntry(kind, links[j], entries[j]);
    }
  }

  /**
   * A failed link names an entry of the list: the unknown id it holds, or
   * the id it links a second time or without its column.
   */
  lemma {:induction false} LinkErrorNamesAnEntry(kind: Reference, entries: seq<Fields>, known: set<int>)
    requires Link(kind, entries, known).Failure?
    ensures var e := Link(kind, entries, known).error;
      (e.DoesNotExist? ==> !Resolves(e.id, known) && exists j :: 0 <= j < |entries| && RefId(kind, entries[j]) == e.id) &&
      (e.IntegrityError? ==> exists j :: 0 <= j < |entries| && RefId(kind, entries[j]) == PyInt(e.refId))
    decreases |entries|
  {
    var n := |entries| - 1;
    var p := entries[..n];
    if Link(kind, p, known).Failure? {
      LinkErrorNamesAnEntry(kind, p, known);
      assert forall j :: 0 <= j < n ==> p[j] == entries[j];
    }
  }

  /** An entry list that fails already in its first `k` entries fails with the same error. */
  lemma {:induction false} LinkFailurePersists(kind: Reference, entries: seq<Fields>, k: nat, known: set<int>)
    requires k <= |entries|
    requires Link(kind, entries[..k], known).Failure?
    ensures Link(kind, entries, known) == Link(kind, entries[..k], known)
    decreases |entries|
  {
    if k < |entries| {
      var n := |entries| - 1;
      assert entries[..n][..k] == entries[..k];
      LinkFailurePersists(kind, entries[..n], k, known);
    } else {
      assert entries[..k] == entries;
    }
  }

  /** The link lemmas, for the three lists of one save. */
  lemma LinksAreSound(skills: seq<Fields>, certifications: seq<Fields>, languages: seq<Fields>, c: Catalog)
    ensures Link(SkillRef, skills, c.Ids(SkillRef)).Success? <==> Linkable(SkillRef, skills, c.Ids(SkillRef))
    ensures Link(CertificationRef, certifications, c.Ids(CertificationRef)).Success? <==>
      Linkable(CertificationRef, certifications, c.Ids(CertificationRef))
    ensures Link(LanguageRef, languages, c.Ids(LanguageRef)).Success? <==> Linkable(LanguageRef, languages, c.Ids(LanguageRef))
    ensures Link(SkillRef, skills, c.Ids(SkillRef)).Success? ==>
      NoDuplicates(RefIds(Link(SkillRef, skills, c.Ids(SkillRef)).value))
    ensures Link(CertificationRef, certifications, c.Ids(CertificationRef)).Success? ==>
      NoDuplicates(RefIds(Link(CertificationRef, certifications, c.Ids(CertificationRef)).value))
    ensures Link(LanguageRef, languages, c.Ids(LanguageRef)).Success? ==>
      NoDuplicates(RefIds(Link(LanguageRef, languages, c.Ids(LanguageRef)).value))
  {
    LinkSucceedsIffLinkable(SkillRef, skills, c.Ids(SkillRef));
    LinkSucceedsIffLinkable(CertificationRef, certifications, c.Ids(CertificationRef));
    LinkSucceedsIffLinkable(LanguageRef, languages, c.Ids(LanguageRef));
    if Link(SkillRef, skills, c.Ids(SkillRef)).Success? {
      LinkedOnce(SkillRef, skills, c.Ids(SkillRef));
    }
    if Link(CertificationRef, certifications, c.Ids(CertificationRef)).Success? {
      LinkedOnce(CertificationRef, certifications, c.Ids(CertificationRef));
    }
    if Link(LanguageRef, languages, c.Ids(LanguageRef)).Success? {
      LinkedOnce(LanguageRef, languages, c.Ids(LanguageRef));
    }
  }

  /** The rows `Model.objects.create(**data)` makes, one per entry, in order. */
  function WithDefaults(defaults: Fields, data: seq<Fields>): (rows: seq<Fields>)
    ensures |rows| == |data|
    ensures forall j :: 0 <= j < |data| ==> rows[j] == defaults + data[j]
  {
    seq(|data|, j requires 0 <= j < |data| => defaults + data[j])
  }

  /** The employee `create` writes, or the error that rolls it back. */
  function Created(d: EmployeeData, c: Catalog): (r: Result<EmployeeRow, StoreError>)
    requires d.family.Some? && d.passportInfo.Some?
    ensures r.Success? <==>
      Linkable(SkillRef, d.skills.GetOr([]), c.Ids(SkillRef)) &&
      Linkable(CertificationRef, d.certifications.GetOr([]), c.Ids(CertificationRef)) &&
      Linkable(LanguageRef, d.languages.GetOr([]), c.Ids(LanguageRef))
    ensures r.Success? ==> UniqueLinks(r.value)
  {
    LinksAreSound(d.skills.GetOr([]), d.certifications.GetOr([]), d.languages.GetOr([]), c);
    var skills :- Link(SkillRef, d.skills.GetOr([]), c.Ids(SkillRef));
    var certifications :- Link(CertificationRef, d.certifications.GetOr([]), c.Ids(CertificationRef));
    var languages :- Link(LanguageRef, d.languages.GetOr([]), c.Ids(LanguageRef));
    Success(EmployeeRow(
      EmployeeDefaults + d.attrs,
      Some(FamilyDefaults + d.family.value),
      Some(d.passportInfo.value),
      WithDefaults(EducationDefaults, d.educations.GetOr([])),
      WithDefaults(WorkExperienceDefaults, d.workExperiences.GetOr([])),
      skills, certifications, languages))
  }

  /** A family sent without a child count is stored with none; a sent count is kept. */
  lemma CreatedFamilyChildCount(d: EmployeeData, c: Catalog)
    requires d.family.Some? && d.passportInfo.Some?
    requires Created(d, c).Success?
    ensures Created(d, c).value.family.Some?
    ensures Lookup(Created(d, c).value.family.value, "number_of_children") ==
      if "number_of_children" in d.family.value then d.family.value["number_of_children"] else PyInt(DefaultNumberOfChildren)
  {
  }

  /** The links a create makes for one catalogue are those its link loop produced. */
  lemma CreatedLinks(d: EmployeeData, c: Catalog, kind: Reference)
    requires d.family.Some? && d.passportInfo.Some?
    requires Created(d, c).Success?
    ensures Link(kind, d.Entries(kind).GetOr([]), c.Ids(kind)) == Success(Created(d, c).value.Links(kind))
  {
  }

  /**
   * What `create` stores: every sent scalar and family value, the column
   * defaults for what was not sent, the passport as sent, one education and
   * work-experience row per entry in order, and one link per entry in order.
   */
  lemma CreateStoresWhatWasSent(d: EmployeeData, c: Catalog)
    requires d.family.Some? && d.passportInfo.Some?
    requires Created(d, c).Success?
    ensures var u := Created(d, c).value;
      (u.attrs.Keys == EmployeeDefaults.Keys + d.attrs.Keys) &&
      (forall k :: k in d.attrs ==> u.attrs[k] == d.attrs[k]) &&
      (forall k :: k in EmployeeDefaults && k !in d.attrs ==> u.attrs[k] == EmployeeDefaults[k]) &&
      u.family.Some? &&
      (u.family.value.Keys == FamilyDefaults.Keys + d.family.value.Keys) &&
      (forall k :: k in d.family.value ==> u.family.value[k] == d.family.value[k]) &&
      (forall k :: k in FamilyDefaults && k !in d.family.value ==> u.family.value[k] == FamilyDefaults[k]) &&
      u.passportInfo == Some(d.passportInfo.value) &&
      u.educations == WithDefaults(EducationDefaults, d.educations.GetOr([])) &&
      u.workExperiences == WithDefaults(WorkExperienceDefaults, d.workExperiences.GetOr([])) &&
      (forall kind ::
        |u.Links(kind)| == |d.Entries(kind).GetOr([])| &&
        forall j :: 0 <= j < |u.Links(kind)| ==> LinksEntry(kind, u.Links(kind)[j], d.Entries(kind).GetOr([])[j]))
  {
    forall kind
      ensures |Created(d, c).value.Links(kind)| == |d.Entries(kind).GetOr([])|
      ensures forall j :: 0 <= j < |d.Entries(kind).GetOr([])| ==>
        LinksEntry(kind, Created(d, c).value.Links(kind)[j], d.Entries(kind).GetOr([])[j])
    {
      CreatedLinks(d, c, kind);
      LinkSucceedsIffLinkable(kind, d.Entries(kind).GetOr([]), c.Ids(kind));
    }
  }

  /** A list that was sent replaces the stored links; one that was not keeps them. */
  function Relink(kind: Reference, entries: Option<seq<Fields>>, current: seq<Association>, known: set<int>): (r: Result<seq<Association>, StoreError>)
    ensures entries.None? ==> r == Success(current)
    ensures entries.Some? ==> r == Link(kind, entries.value, known)
  {
    match entries
    case None => Success(current)
    case Some(es) => Link(kind, es, known)
  }

  /** `if family_data:` — an empty or missing dict leaves the row alone. */
  function Merged(current: Fields, sent: Option<Fields>): (r: Fields)
    ensures sent.None? || sent.value == map[] ==> r == current
    ensures sent.Some? ==> r.Keys == current.Keys + sent.value.Keys
    ensures sent.Some? ==> forall k :: k in sent.value ==> r[k] == sent.value[k]
    ensures forall k :: k in current && (sent.None? || k !in sent.value) ==> r[k] == current[k]
  {
    if sent.Some? && sent.value != map[] then current + sent.value else current
  }

  /** `if family_data:` / `if passport_info_data:` — a dict that is sent and not empty. */
  predicate Sent(data: Option<Fields>) {
    data.Some? && data.value != map[]
  }

  /**
   * `instance.family` or `instance.passport_info` under `if data:`, then the
   * `setattr` loop: for an employee without that row the lookup raises;
   * nothing sent leaves the row, or its absence, alone.
   */
  function MergedRow(part: Part, current: Option<Fields>, sent: Option<Fields>): (r: Result<Option<Fields>, StoreError>)
    ensures r.Failure? <==> Sent(sent) && current.None?
    ensures r.Failure? ==> r.error == RelatedObjectDoesNotExist(part)
    ensures r.Success? && !Sent(sent) ==> r.value == current
    ensures r.Success? && Sent(sent) ==> r.value == Some(Merged(current.value, sent))
  {
    if !Sent(sent) then Success(current)
    else if current.None? then Failure(RelatedObjectDoesNotExist(part))
    else Success(Some(Merged(current.value, sent)))
  }

  /** A list that was sent is recreated from scratch; one that was not is kept. */
  function Recreated(defaults: Fields, sent: Option<seq<Fields>>, current: seq<Fields>): (r: seq<Fields>)
    ensures sent.None? ==> r == current
    ensures sent.Some? ==> r == WithDefaults(defaults, sent.value)
  {
    match sent
    case None => current
    case Some(data) => WithDefaults(defaults, data)
  }

  /** The employee `update` leaves behind, or the error that rolls it back. */
  function Updated(row: EmployeeRow, d: EmployeeData, c: Catalog): (r: Result<EmployeeRow, StoreError>)
    ensures r.Success? <==>
      (Sent(d.family) ==> row.family.Some?) &&
      (Sent(d.passportInfo) ==> row.passportInfo.Some?) &&
      (d.skills.Some? ==> Linkable(SkillRef, d.skills.value, c.Ids(SkillRef))) &&
      (d.certifications.Some? ==> Linkable(CertificationRef, d.certifications.value, c.Ids(CertificationRef))) &&
      (d.languages.Some? ==> Linkable(LanguageRef, d.languages.value, c.Ids(LanguageRef)))
    ensures r.Success? && UniqueLinks(row) ==> UniqueLinks(r.value)
  {
    LinksAreSound(d.skills.GetOr([]), d.certifications.GetOr([]), d.languages.GetOr([]), c);
    var family :- MergedRow(FamilyRow, row.family, d.family);
    var passportInfo :- MergedRow(PassportRow, row.passportInfo, d.passportInfo);
    var skills :- Relink(SkillRef, d.skills, row.skills, c.Ids(SkillRef));
    var certifications :- Relink(CertificationRef, d.certifications, row.certifications, c.Ids(CertificationRef));
    var languages :- Relink(LanguageRef, d.languages, row.languages, c.Ids(LanguageRef));
    Success(EmployeeRow(
      row.attrs + d.attrs,
      family,
      passportInfo,
      Recreated(EducationDefaults, d.educations, row.educations),
      Recreated(WorkExperienceDefaults, d.workExperiences, row.workExperiences),
      skills, certifications, languages))
  }

  /** An update only touches what it was sent: every scalar and every part left out stays. */
  lemma UpdateKeepsWhatWasNotSent(row: EmployeeRow, d: EmployeeData, c: Catalog)
    requires Updated(row, d, c).Success?
    ensures var u := Updated(row, d, c).value;
      (forall k :: k in row.attrs && k !in d.attrs ==> k in u.attrs && u.attrs[k] == row.attrs[k]) &&
      (!Sent(d.family) ==> u.family == row.family) &&
      (!Sent(d.passportInfo) ==> u.passportInfo == row.passportInfo) &&
      (d.educations.None? ==> u.educations == row.educations) &&
      (d.workExperiences.None? ==> u.workExperiences == row.workExperiences) &&
      (forall kind :: d.Entries(kind).None? ==> u.Links(kind) == row.Links(kind))
  {
  }

  /** ... and everything it was sent replaces what was stored. */
  lemma UpdateStoresWhatWasSent(row: EmployeeRow, d: EmployeeData, c: Catalog)
    requires Updated(row, d, c).Success?
    ensures var u := Updated(row, d, c).value;
      (forall k :: k in d.attrs ==> k in u.attrs && u.attrs[k] == d.attrs[k]) &&
      (Sent(d.family) ==> row.family.Some? && u.family == Some(Merged(row.family.value, d.family))) &&
      (Sent(d.passportInfo) ==> row.passportInfo.Some? && u.passportInfo == Some(Merged(row.passportInfo.value, d.passportInfo))) &&
      (d.educations.Some? ==> u.educations == WithDefaults(EducationDefaults, d.educations.value)) &&
      (d.workExperiences.Some? ==> u.workExperiences == WithDefaults(WorkExperienceDefaults, d.workExperiences.value)) &&
      (forall kind :: d.Entries(kind).Some? ==>
        |u.Links(kind)| == |d.Entries(kind).value| &&
        forall j :: 0 <= j < |u.Links(kind)| ==> LinksEntry(kind, u.Links(kind)[j], d.Entries(kind).value[j]))
  {
    forall kind | d.Entries(kind).Some?
      ensures |Updated(row, d, c).value.Links(kind)| == |d.Entries(kind).value|
      ensures forall j :: 0 <= j < |d.Entries(kind).value| ==>
        LinksEntry(kind, Updated(row, d, c).value.Links(kind)[j], d.Entries(kind).value[j])
    {
      UpdatedLinks(row, d, c, kind);
      LinkSucceedsIffLinkable(kind, d.Entries(kind).value, c.Ids(kind));
    }
  }

  /**
   * Data sent for a family or passport the employee does not have makes the
   * whole save fail; the family is looked up first.
   */
  lemma MissingRowFailsUpdate(row: EmployeeRow, d: EmployeeData, c: Catalog)
    requires (Sent(d.family) && row.family.None?) || (Sent(d.passportInfo) && row.passportInfo.None?)
    ensures Updated(row, d, c).Failure? && Updated(row, d, c).error.RelatedObjectDoesNotExist?
    ensures Sent(d.family) && row.family.None? ==> Updated(row, d, c).error.part == FamilyRow
    ensures !(Sent(d.family) && row.family.None?) ==> Updated(row, d, c).error.part == PassportRow
  {
  }

  /** An entry naming an id its catalogue does not hold makes the whole save fail. */
  lemma UnknownReferenceFailsSave(row: EmployeeRow, d: EmployeeData, c: Catalog, kind: Reference, j: nat)
    requires d.Entries(kind).Some? && j < |d.Entries(kind).value|
    requires !Resolves(RefId(kind, d.Entries(kind).value[j]), c.Ids(kind))
    ensures Updated(row, d, c).Failure?
    ensures d.family.Some? && d.passportInfo.Some? ==> Created(d, c).Failure?
  {
  }

  /** The links an update leaves are those its link loop for that catalogue produced. */
  lemma UpdatedLinks(row: EmployeeRow, d: EmployeeData, c: Catalog, kind: Reference)
    requires Updated(row, d, c).Success?
    ensures Relink(kind, d.Entries(kind), row.Links(kind), c.Ids(kind)) == Success(Updated(row, d, c).value.Links(kind))
  {
  }

  lemma OverrideTwice(current: Fields, sent: Fields)
    ensures (current + sent) + sent == current + sent
  {
  }

  /** Sending the same update twice leaves the employee as the first one did. */
  lemma UpdateIsIdempotent(row: EmployeeRow, d: EmployeeData, c: Catalog)
    requires Updated(row, d, c).Success?
    ensures Updated(Updated(row, d, c).value, d, c) == Updated(row, d, c)
  {
    var u := Updated(row, d, c).value;
    UpdatedLinks(row, d, c, SkillRef);
    UpdatedLinks(row, d, c, CertificationRef);
    UpdatedLinks(row, d, c, LanguageRef);
    OverrideTwice(row.attrs, d.attrs);
    if Sent(d.family) {
      OverrideTwice(row.family.value, d.family.value);
    }
    if Sent(d.passportInfo) {
      OverrideTwice(row.passportInfo.value, d.passportInfo.value);
    }
    assert MergedRow(FamilyRow, u.family, d.family) == Success(u.family);
    assert MergedRow(PassportRow, u.passportInfo, d.passportInfo) == Success(u.passportInfo);
    assert Relink(SkillRef, d.skills, u.skills, c.Ids(SkillRef)) == Success(u.skills);
    assert Relink(CertificationRef, d.certifications, u.certifications, c.Ids(CertificationRef)) == Success(u.certifications);
    assert Relink(LanguageRef, d.languages, u.languages, c.Ids(LanguageRef)) == Success(u.languages);
  }

  // ---------------------------------------------------------------------
  // The store and the two writes.
  // ---------------------------------------------------------------------

  /** `for attr, value in data.items(): setattr(obj, attr, value)`. */
  method SetAttrs(current: Fields, sent: Fields) returns (r: Fields)
    ensures r == current + sent
  {
    r := current;
    var pending := sent.Keys;
    while pending != {}
      invariant pending <= sent.Keys
      invariant r.Keys == current.Keys + (sent.Keys - pending)
      invariant forall k :: k in r ==> r[k] == if k in sent && k !in pending then sent[k] else current[k]
      decreases pending
    {
      var k :| k in pending;
      r := r[k := sent[k]];
      pending := pending - {k};
    }
  }

  /** `if data:` assign each sent field on the stored row. */
  method Merge(current: Fields, sent: Option<Fields>) returns (r: Fields)
    ensures r == Merged(current, sent)
  {
    r := current;
    if sent.Some? && sent.value != map[] {
      r := SetAttrs(current, sent.value);
    }
  }

  /** `if data:` read the related row and assign each sent field on it. */
  method MergeRow(part: Part, current: Option<Fields>, sent: Option<Fields>) returns (r: Result<Option<Fields>, StoreError>)
    ensures r == MergedRow(part, current, sent)
  {
    r := Success(current);
    if sent.Some? && sent.value != map[] {
      if current.None? {
        return Failure(RelatedObjectDoesNotExist(part));
      }
      var merged := Merge(current.value, sent);
      r := Success(Some(merged));
    }
  }

  /** `if data is not None:` delete the stored rows and create one per entry. */
  method Recreate(defaults: Fields, sent: Option<seq<Fields>>, current: seq<Fields>) returns (r: seq<Fields>)
    ensures r == Recreated(defaults, sent, current)
  {
    r := current;
    if sent.Some? {
      r := CreateRows(defaults, sent.value);
    }
  }

  /** `for data in rows: Model.objects.create(employee=..., **data)`. */
  method CreateRows(defaults: Fields, data: seq<Fields>) returns (rows: seq<Fields>)
    ensures rows == WithDefaults(defaults, data)
  {
    rows := [];
    for i := 0 to |data|
      invariant rows == WithDefaults(defaults, data[..i])
    {
      rows := rows + [defaults + data[i]];
    }
  }

  /** The employees table with the rows that hang off each employee. */
  class EmployeeStore {
    var employees: map<int, EmployeeRow>
    var nextId: int
    var catalog: Catalog

    ghost predicate Valid()
      reads this
    {
      1 <= nextId &&
      forall id :: id in employees ==> 1 <= id < nextId && UniqueLinks(employees[id])
    }

    /**
     * The tables as they stand: the employees already stored, some of them
     * perhaps without a family or passport row, and the next id to hand out.
     */
    constructor (catalog: Catalog, employees: map<int, EmployeeRow>, nextId: int)
      requires 1 <= nextId
      requires forall id :: id in employees ==> 1 <= id < nextId && UniqueLinks(employees[id])
      ensures Valid()
      ensures this.employees == employees && this.nextId == nextId && this.catalog == catalog
    {
      this.employees := employees;
      this.nextId := nextId;
      this.catalog := catalog;
    }

    /** The link loop of `create` and `update` for one catalogue. */
    method LinkAll(kind: Reference, entries: seq<Fields>) returns (r: Result<seq<Association>, StoreError>)
      ensures r == Link(kind, entries, catalog.Ids(kind))
    {
      var known := catalog.Ids(kind);
      var linked: seq<Association> := [];
      for i := 0 to |entries|
        invariant Link(kind, entries[..i], known) == Success(linked)
      {
        assert entries[..i + 1][..i] == entries[..i];
        var id := RefId(kind, entries[i]);
        if !Resolves(id, known) {
          r := Failure(DoesNotExist(kind, id));
          LinkFailurePersists(kind, entries, i + 1, known);
          return;
        }
        if !Insertable(kind, entries[i]) || id.i in RefIds(linked) {
          r := Failure(IntegrityError(kind, id.i));
          LinkFailurePersists(kind, entries, i + 1, known);
          return;
        }
        linked := linked + [Association(id.i, Attr(kind, entries[i]))];
      }
      assert entries[..|entries|] == entries;
      r := Success(linked);
    }

    /**
     * `EmployeeSerializer.create`: the new employee gets the next id; a
     * failure rolls the whole transaction back and leaves the table as it was.
     */
    method Create(d: EmployeeData) returns (r: Result<int, StoreError>)
      requires Valid()
      requires d.family.Some? && d.passportInfo.Some?
      modifies this
      ensures Valid() && catalog == old(catalog)
      ensures Created(d, catalog).Failure? ==>
        r == Failure(Created(d, catalog).error) && employees == old(employees) && nextId == old(nextId)
      ensures Created(d, catalog).Success? ==>
        r == Success(old(nextId)) && old(nextId) !in old(employees) &&
        employees == old(employees)[old(nextId) := Created(d, catalog).value] && nextId == old(nextId) + 1
    {
      var attrs := EmployeeDefaults + d.attrs;
      var family := FamilyDefaults + d.family.value;
      var passportInfo := d.passportInfo.value;
      var educations := CreateRows(EducationDefaults, d.educations.GetOr([]));
      var workExperiences := CreateRows(WorkExperienceDefaults, d.workExperiences.GetOr([]));
      LinksAreSound(d.skills.GetOr([]), d.certifications.GetOr([]), d.languages.GetOr([]), catalog);
      var skills := LinkAll(SkillRef, d.skills.GetOr([]));
      if skills.Failure? {
        return Failure(skills.error);
      }
      var certifications := LinkAll(CertificationRef, d.certifications.GetOr([]));
      if certifications.Failure? {
        return Failure(certifications.error);
      }
      var languages := LinkAll(LanguageRef, d.languages.GetOr([]));
      if languages.Failure? {
        return Failure(languages.error);
      }
      var row := EmployeeRow(attrs, Some(family), Some(passportInfo), educations, workExperiences,
        skills.value, certifications.value, languages.value);
      r := Success(nextId);
      employees := employees[nextId := row];
      nextId := nextId + 1;
    }

    /**
     * `EmployeeSerializer.update` of a stored employee: on success the
     * employee becomes `Updated` of its old row; a failure rolls the whole
     * transaction back and leaves the table as it was.
     */
    method Update(id: int, d: EmployeeData) returns (r: Outcome<StoreError>)
      requires Valid()
      requires id in employees
      modifies this
      ensures Valid() && catalog == old(catalog) && nextId == old(nextId)
      ensures Updated(old(employees)[id], d, catalog).Failure? ==>
        r == Fail(Updated(old(employees)[id], d, catalog).error) && employees == old(employees)
      ensures Updated(old(employees)[id], d, catalog).Success? ==>
        r == Pass && employees == old(employees)[id := Updated(old(employees)[id], d, catalog).value]
    {
      var row := employees[id];
      var attrs := SetAttrs(row.attrs, d.attrs);
      var family := MergeRow(FamilyRow, row.family, d.family);
      if family.Failure? {
        return Fail(family.error);
      }
      var passportInfo := MergeRow(PassportRow, row.passportInfo, d.passportInfo);
      if passportInfo.Failure? {
        return Fail(passportInfo.error);
      }
      var educations := Recreate(EducationDefaults, d.educations, row.educations);
      var workExperiences := Recreate(WorkExperienceDefaults, d.workExperiences, row.workExperiences);
      LinksAreSound(d.skills.GetOr([]), d.certifications.GetOr([]), d.languages.GetOr([]), catalog);
      var skills := Relinked(SkillRef, d.skills, row.skills);
      if skills.Failure? {
        return Fail(skills.error);
      }
      var certifications := Relinked(CertificationRef, d.certifications, row.certifications);
      if certifications.Failure? {
        return Fail(certifications.error);
      }
      var languages := Relinked(LanguageRef, d.languages, row.languages);
      if languages.Failure? {
        return Fail(languages.error);
      }
      var updated := EmployeeRow(attrs, family.value, passportInfo.value, educations, workExperiences,
        skills.value, certifications.value, languages.value);
      assert Updated(row, d, catalog) == Success(updated);
      employees := employees[id := updated];
      r := Pass;
    }

    /** `if data is not None:` delete the old links and run the link loop. */
    method Relinked(kind: Reference, entries: Option<seq<Fields>>, current: seq<Association>)
      returns (r: Result<seq<Association>, StoreError>)
      ensures r == Relink(kind, entries, current, catalog.Ids(kind))
    {
      if entries.Some? {
        r := LinkAll(kind, entries.value);
      } else {
        r := Success(current);
      }
    }
  }
}

=== FILE: text_fields.dfy ===
/**
 * The text fields of the server-rendered forms and of the REST serializers:
 * a submitted value is stripped of white space at both ends (Python's
 * `str.strip`), an empty value is missing, and any other value is checked
 * against the field's length bounds and for NUL characters.
 */
module TextFields {
  import opened Wrappers

  /** Python's `str.isspace` for one character. */
  predicate IsSpace(c: char) {
    var n := c as int;
    (9 <= n <= 13) || (28 <= n <= 32) || n == 0x85 || n == 0xA0 || n == 0x1680 ||
    (0x2000 <= n <= 0x200A) || n == 0x2028 || n == 0x2029 || n == 0x202F || n == 0x205F || n == 0x3000
  }

  /** The first index from `i` on that does not hold white space, or `|s|`. */
  function SkipSpace(s: string, i: nat): (r: nat)
    requires i <= |s|
    ensures i <= r <= |s|
    ensures forall k :: i <= k < r ==> IsSpace(s[k])
    ensures r < |s| ==> !IsSpace(s[r])
    decreases |s| - i
  {
    if i < |s| && IsSpace(s[i]) then SkipSpace(s, i + 1) else i
  }

  /** The index just past the last character before `j`, and from `lo` on, that is not white space, or `lo`. */
  function SkipSpaceBack(s: string, lo: nat, j: nat): (r: nat)
    requires lo <= j <= |s|
    ensures lo <= r <= j
    ensures forall k :: r <= k < j ==> IsSpace(s[k])
    ensures r > lo ==> !IsSpace(s[r - 1])
    decreases j
  {
    if j > lo && IsSpace(s[j - 1]) then SkipSpaceBack(s, lo, j - 1) else j
  }

  /** `s[i..j]` is what is left of `s` once the white space before `i` and from `j` on is cut off. */
  predicate MiddleAt(s: string, i: int, j: int) {
    0 <= i <= j <= |s| &&
    (forall k :: 0 <= k < i ==> IsSpace(s[k])) && (forall k :: j <= k < |s| ==> IsSpace(s[k]))
  }

  /**
   * `s.strip()`: a middle part of `s`, with only white space cut off at
   * either end, that neither starts nor ends with white space.
   */
  function Strip(s: string): (r: string)
    ensures exists i, j :: MiddleAt(s, i, j) && r == s[i..j]
    ensures r == [] || (!IsSpace(r[0]) && !IsSpace(r[|r| - 1]))
  {
    var i := SkipSpace(s, 0);
    var j := SkipSpaceBack(s, i, |s|);
    assert MiddleAt(s, i, j);
    s[i..j]
  }

  /** A string with no white space at either end is its own strip. */
  lemma StripLeavesTrimmed(s: string)
    requires s == [] || (!IsSpace(s[0]) && !IsSpace(s[|s| - 1]))
    ensures Strip(s) == s
  {
    assert SkipSpace(s, 0) == 0;
    assert SkipSpaceBack(s, 0, |s|) == |s|;
    assert s[0..|s|] == s;
  }

  /** Stripping twice is stripping once. */
  lemma StripIdempotent(s: string)
    ensures Strip(Strip(s)) == Strip(s)
  {
    StripLeavesTrimmed(Strip(s));
  }

  /**
   * Why a text field refuses a value. `Required` stands for Django's
   * "required" error and, on the serializer path, for the REST framework's
   * "blank" error: both refuse a value that is empty once stripped.
   */
  datatype TextError = Required | TooShort(length: nat) | TooLong(length: nat) | NullCharacter

  /**
   * How a text field is declared: whether a value is required, and its
   * length bounds (a `minLength` of 0 is no lower bound).
   */
  datatype TextField = TextField(required: bool, minLength: nat, maxLength: nat)

  /**
   * The errors the field's validators raise on a non-empty stripped value,
   * all of them, in the order they run: the minimum length, the maximum
   * length, then the NUL-character check.
   */
  function ValidatorErrors(f: TextField, q: string): (errs: seq<TextError>)
    ensures TooShort(|q|) in errs <==> |q| < f.minLength
    ensures TooLong(|q|) in errs <==> |q| > f.maxLength
    ensures NullCharacter in errs <==> '\0' in q
    ensures forall e :: e in errs ==> e == TooShort(|q|) || e == TooLong(|q|) || e == NullCharacter
    ensures errs == [] <==> f.minLength <= |q| <= f.maxLength && '\0' !in q
  {
    (if |q| < f.minLength then [TooShort(|q|)] else []) +
    (if |q| > f.maxLength then [TooLong(|q|)] else []) +
    (if '\0' in q then [NullCharacter] else [])
  }

  /**
   * `CharField.clean`: the stripped value; an empty one is accepted as `''`
   * unless the field is required, and the validators run on any other.
   */
  function CleanText(f: TextField, raw: string): (r: Result<string, seq<TextError>>)
    ensures r.Success? <==>
      var q := Strip(raw);
      (q == [] && !f.required) || (q != [] && f.minLength <= |q| <= f.maxLength && '\0' !in q)
    ensures r.Success? ==> r.value == Strip(raw)
    ensures r.Failure? && Strip(raw) == [] ==> r.error == [Required]
    ensures r.Failure? && Strip(raw) != [] ==> r.error == ValidatorErrors(f, Strip(raw)) && r.error != []
  {
    var q := Strip(raw);
    if q == [] then (if f.required then Failure([Required]) else Success(q))
    else
      var errs := ValidatorErrors(f, q);
      if errs == [] then Success(q) else Failure(errs)
  }

  /** A value the field accepted, submitted again, is accepted unchanged. */
  lemma CleanTextIdempotent(f: TextField, raw: string)
    requires CleanText(f, raw).Success?
    ensures CleanText(f, CleanText(f, raw).value) == CleanText(f, raw)
  {
    StripIdempotent(raw);
  }
}

=== FILE: wrappers.dfy ===
/** Failure-compatible result types shared by the whole model. */
module Wrappers {

  /** A value that may be missing (Python `None`, an absent key). */
  datatype Option<+T> = None | Some(value: T) {
    function GetOr(default: T): T {
      match this
      case Some(v) => v
      case None => default
    }
  }

  /** The value an operation returns, or the error it raises. */
  datatype Result<+T, +E> = Success(value: T) | Failure(error: E) {
    predicate IsFailure() {
      Failure?
    }

    function PropagateFailure<U>(): Result<U, E>
      requires Failure?
    {
      Failure(error)
    }

    function Extract(): T
      requires Success?
    {
      value
    }
  }

  /** A check that passes its input through unchanged, or raises. */
  datatype Outcome<+E> = Pass | Fail(error: E)
}
